=== FILE: README.md ===
# ngResourcePattern in Dafny

A model of the two cooperating cores of ngResourcePattern, a teaching example
for declarative REST resource clients, and proofs about them.

- **The development server** (`server.js`): an in-memory entity store. Each
  collection name maps to a sequence of slots. A record's id is its 1-based
  slot position. Deleting a record leaves a `null` tombstone, so the sequence
  never shrinks and an id is never reused. Around the store is a request
  handler: it parses the pathname into an asset request, an API call or the
  index page, picks a CRUD operation by HTTP verb, and for assets picks a
  content type and searches the static directories in order.
- **The resource factory** (`client/resourceSrv.js`). `makeAction` wires the
  generated transformers into an action descriptor according to its HTTP
  method. `makeResource` builds the six standard actions and merges the
  caller's extra actions over them by name. The generated response
  transformer parses JSON and maps over arrays. The generated request
  transformer runs the caller's function on a copy and serialises the result.
- **The Book and Genre definitions** (`client/books/Book.js`,
  `client/books/Genre.js`). These are a concrete instance of the factory: a
  genre table, transformers that send a genre as its code and turn a received
  code back into a genre, an extra `available` action, and `isFiction`.

Everything is a pure function over immutable values:

- The store is a `map<string, seq<Option<Json>>>`.
- Every server operation returns the new store together with what became of
  the request (`Answered(response)`, `Unanswered`, or `Thrown(error)`).
- Every throw happens in a callback with nothing to catch it, so it ends the
  server process. `Server.Run` stops at the first throw with `Exited`: the
  in-memory store is lost and no later request is served.
- The extra actions given to `makeResource` are an object's entries in key
  order. An object holds one value per key, so the type `Extras` has distinct
  names.
- The clock reading `now` is a parameter.
- The file system is a map from full paths to bytes.
- JSON text on the wire is abstract. `Encoded(v)` is the serialisation of a
  value `v`. `Malformed(text)` is text that does not parse.

A caller's transformer function is modelled as `Json -> Call`. The call
reports what the function returned and what it left its argument as, or what
it threw. This is how "the function mutates its argument" is stated.

Files: `wrappers.dfy`, `json.dfy`, `http.dfy` (shared values); `store.dfy`,
`store_laws.dfy`, `assets.dfy`, `router.dfy`, `server.dfy` (server);
`transforms.dfy`, `resource_factory.dfy`, `genres.dfy`, `books.dfy` (client).

## Model

| member | source | states |
|---|---|---|
| Store.GetEntities | server.js:66-86 | 404 with no body exactly when the collection is unknown, or a truthy id is past the end or names a tombstone; otherwise, for a truthy id, exactly the record in slot `id`; a falsy id (`NaN`, `0`) lists the live records |
| Store.Live | server.js:83 | the listing is no longer than the collection and holds only truthy records |
| Store.LiveMembers | server.js:83 | a record is listed exactly when some slot holds it and it is truthy |
| Store.LiveAppend | server.js:83 | the listing keeps slot order: an appended record is listed last |
| Store.LiveOfTombstones | server.js:83 | an existing collection with only tombstones lists `[]` |
| Store.CreateEntity | server.js:88-99 | the collection is made lazily; an object is appended with `id` = new length (overriding the client's id), `created` = `modified` = `now`, all other fields kept; existing slots and other collections are unchanged; a null or primitive payload throws after the empty collection was made |
| Store.UpdateEntity | server.js:101-116 | 404 for an unknown collection or an id that is missing, non-positive, past the end or a tombstone; otherwise the slot is replaced wholesale by the payload with `modified` = `now`, so a `created` the payload omits is lost; length and other slots are unchanged |
| Store.DeleteEntity | server.js:118-129 | 404 exactly for an unknown collection or an id past the end; otherwise the slot becomes a tombstone (also when it already was one) and the reply is a bare 200 |
| Store.NumericId | server.js:104-107 | `entity.id` as a number: a number is itself, `null` is 0, a boolean 0 or 1; a string, array, object or `undefined` is treated as `NaN` (`None`) |
| Store.PayloadId | server.js:104-107 | an update addresses a slot only through an `id` field of an object payload, and a numeric `id` addresses that number |
| StoreLaws.GetAfterCreate | server.js:88-99 | a created object gets the next id, and reading that id returns the very record the create answered with |
| StoreLaws.GetAfterUpdate | server.js:101-116 | after an update, the length is unchanged and reading the id returns the updated record |
| StoreLaws.GetAfterDelete | server.js:118-129 | after a delete, the length is unchanged, reading the id is a 404, and the listing only holds records listed before |
| StoreLaws.CreateStep | server.js:88-99 | one create of an object leaves the collection one longer and answers with the id it assigned |
| StoreLaws.CreateAll | server.js:88-99 | creating payloads one by one gives one reply per payload |
| StoreLaws.CreatesNumberConsecutively | server.js:88-99 | successive creates number the records consecutively from one past the current length |
| StoreLaws.FreshCollectionIds | server.js:88-99 | on a collection that does not yet exist, the i-th create gets id i |
| Assets.LastIndexOf | server.js:48 | the last position of the character, or -1 when there is none |
| Assets.Extension | server.js:48 | the extension is a suffix of the name: the whole name when it has no `.`, otherwise the text from the last `.` on |
| Assets.ExtensionBySuffix | server.js:48-55 | the extension is `.js` (`.html`) exactly when the name ends in `.js` (`.html`) |
| Assets.ContentType | server.js:46-59 | `application/javascript` exactly for names ending `.js`, `text/html` exactly for `.html`, `text/plain` otherwise |
| Assets.AssetResponse | server.js:46-62 | 200 with the file's bytes unchanged and the content type its name calls for |
| Assets.GetAsset | server.js:31-43 | the first directory, in order, that holds the file answers with it; the plain-text 404 when none does |
| Router.TakeWhile | server.js:172-175 | the longest prefix whose characters all satisfy the test, as a greedy regex repetition takes it |
| Router.DigitsValue | server.js:177 | `parseInt` of a run of k decimal digits is a number below 10^k |
| Router.DigitsValueConcat | server.js:177 | `parseInt` reads digits left to right: the value of `a` followed by `b` is `a`'s value shifted past `b`'s digits plus `b`'s value |
| Router.DigitsValueOfZeros | server.js:177 | a run of zeros reads as 0 |
| Router.DigitsValueOfPadded | server.js:177 | leading zeros do not change the value: `07` reads as 7 and `00` as 0 |
| Router.RouteId | server.js:175-177 | the id is `NaN` (`None`) exactly when no digit follows the name, after an optional `/` |
| Router.RouteIdAfterSlash | server.js:175-177 | after a `/`, the id group is the digit run that follows it |
| Router.Decimal | server.js:175-177 | a numeral is a non-empty run of digits |
| Router.DigitsValueOfDecimal | server.js:177 | `parseInt` of a numeral gives its number back |
| Router.ParseRoute | server.js:171-177 | an asset route exactly when the path starts with `/assets/` in any letter case, for the text up to a line break; an API route exactly when it otherwise starts with `/api/` and a non-`/` character, naming the longest run without `/`; the index page otherwise |
| Router.ApiRouteOf | server.js:175-177 | `/api/<name>` followed by nothing or by `/` is an API call on `name` |
| Router.RouteIdOfDecimal | server.js:175-177 | the id group of `/<numeral><text>` is the numeral's number when the text does not start with a digit |
| Router.ApiRouteWithId | server.js:175-177 | `/api/<name>/<n><text>` addresses record `n` of `name`; trailing text that does not start with a digit is ignored |
| Router.RouteIdOfPadded | server.js:175-177 | the id group of `/<zeros><numeral><text>` is the numeral's number |
| Router.ApiRouteWithPaddedId | server.js:175-177 | `/api/<name>/<zeros><n><text>` addresses record `n`: `/api/books/07` is record 7, and `/api/books/00` has id 0, which is falsy |
| Router.ApiRouteWithoutId | server.js:175-177 | `/api/<name>` has no id (`NaN`) |
| Router.AssetRouteOf | server.js:172-173 | `/assets/<file>` in any letter case requests `file` when it has no line break |
| Server.HandleApi | server.js:178-201 | GET reads without changing the store; POST and PUT with a JSON body create and update the parsed entity, and with a body that is not JSON throw and change nothing; DELETE with a truthy id deletes it, and without one is a 400 with a JSON `message`; any other verb gets no answer; the store only evolves |
| Server.Handle | server.js:171-207 | an asset path answers the first static directory holding the file and the index page is served for any other non-API path, neither changing the store; a missing index page throws; API paths go to the verb dispatch; the store only evolves |
| Server.EvolvesTransitive | server.js:88-129 | "the store only grows and tombstones stay" composes across steps |
| Server.Run | server.js:161-208 | no requests leave the store as it was; while the process runs, no collection disappears or gets shorter and a tombstone is never resurrected |
| Server.RunAppend | server.js:161-208 | running two batches is running the second from where the first left the process, and nothing after an exit |
| Server.RunStep | server.js:161-208 | a request whose handling throws ends the process; any other keeps it up, and the rest is served from the store it left |
| Server.ExitedOnlyAfterThrow | server.js:161-208 | the process exits only at a request, reached while it was up, whose handling throws |
| Server.ThrowsAtShift | server.js:161-208 | after a request that did not throw, a throw at request k of the rest is a throw at request k + 1 of the whole batch |
| Server.ThrowEndsTheProcess | server.js:183-192 | a request whose handling throws ends the process: no later request is served |
| Server.MalformedPostEndsTheProcess | server.js:182-186 | a POST of text that is not JSON to a collection ends the process, whatever was to follow |
| Server.DeletedIdIsNeverServedOrReused | server.js:118-129 | after id k is deleted, whatever requests follow, while the process runs reading k is a 404 and the next create assigns an id above k |
| Server.ScenarioRoutes | server.js:175-177 | `/api/<name>` lists the collection and `/api/<name>/1` addresses id 1 |
| Server.ScenarioCreate | server.js:88-99 | a POST to a fresh store stores and answers the payload stamped with id 1 |
| Server.ScenarioRead | server.js:66-81 | a GET of id 1 answers the stored record |
| Server.ScenarioDelete | server.js:118-129 | a DELETE of id 1 leaves a tombstone and a bare 200 |
| Server.ScenarioGone | server.js:66-83 | after that, reading id 1 is a 404 |
| Server.ScenarioEmptyList | server.js:66-83 | after that, the listing is `[]` |
| Server.CrudScenario | server.js:171-201 | create, read, delete, read, list in a fresh store: id 1 with both timestamps, the same record read back, a bare 200, a 404, then `[]` |
| Http.NotFound | server.js:25-27 | the asset miss: 404, plain text, body "Not found" |
| Http.ApiNotFound | server.js:136-138 | the API miss: 404 with no content type and no body, unlike the asset miss |
| Http.ApiJson | server.js:131-134 | 200, JSON type, and a body that parses back to the value |
| Http.BadRequest | server.js:140-142 | 400, JSON type, and a body that parses to an object holding only `message` |
| Http.Deleted | server.js:127 | a bare 200: no content type and no body |
| Json.Truthy | server.js:83 | a value is falsy exactly when it is `null`, `false`, `0` or `""` |
| Transforms.MapCall | client/resourceSrv.js:108 | mapping over an array gives the results in order, with the same length, or the first element's throw |
| Transforms.DecodeWith | client/resourceSrv.js:99-110 | text that is not JSON fails with a message that ends in the raw text; an array is transformed element by element, and on failure the error is that of the first element that throws, as `_.map` stops there; any other value is transformed once |
| Transforms.MalformedNamesRawText | client/resourceSrv.js:102-106 | the error for an unparsable response carries the whole raw text |
| Transforms.EncodeWith | client/resourceSrv.js:112-119 | the body sent parses back to what the caller's function returned, and the caller's entity is left as it was whatever the function did to its argument |
| ResourceFactory.EffectiveMethod | client/resourceSrv.js:64 | a missing or empty method is GET; any other method is kept |
| ResourceFactory.MakeAction | client/resourceSrv.js:61-97 | GET gets only the response hook, POST and PUT both, DELETE neither, and any other method the response hook plus a warning; a hook is replaced only when it was generated; nothing else in the action changes |
| ResourceFactory.MakeActionWithoutTransformers | client/resourceSrv.js:61-97 | with no transformer options the action comes back unchanged |
| ResourceFactory.GeneratedFrom | client/resourceSrv.js:34-37 | a hook is generated exactly when the matching transformer option was given |
| ResourceFactory.BuiltInActions | client/resourceSrv.js:38-45 | exactly `get`, `query` (a list), `save` (POST), `update` (PUT), `delete` and `remove` (DELETE), with reads carrying only the response hook, `save`/`update` both, the deletes neither |
| ResourceFactory.LastActionFromFront | client/resourceSrv.js:46-49 | of two actions under one name, the later one is the one kept |
| ResourceFactory.LastActionOfEntry | client/resourceSrv.js:46-49 | with names distinct, as in an object, looking up an entry's name gives that entry's action |
| ResourceFactory.LastActionFound | client/resourceSrv.js:46-49 | an action found under a name is an entry of that name |
| ResourceFactory.AllKnownByName | client/resourceSrv.js:46-49 | every entry's method is known exactly when the action kept under every name has a known method |
| ResourceFactory.Merge | client/resourceSrv.js:46-49 | folding the extras in gives each given name its action, wired by its own method, and leaves every other name as it was; there is no warning exactly when every extra method is known |
| ResourceFactory.MakeResource | client/resourceSrv.js:30-55 | the standard actions are always present; a same-named extra replaces one; other standard actions are untouched; without transformer options extras pass unchanged; url, params, options and instance methods are passed on as given; no warning exactly when the action of every extra name has a known method |
| ResourceFactory.BindParams | client/books/Book.js:7-9 | a default `@field` reads that field of the instance; any other default is used literally |
| Genres.DisplayOf | client/books/Genre.js:5-24 | a code has a display name exactly when it is in the table, and that name is the table's |
| Genres.CodesDistinct | client/books/Genre.js:5-24 | no code appears twice in the table |
| Genres.New | client/books/Genre.js:26-30 | the instance keeps the code as given; it has a display name exactly when the code names a table entry, and then it is that entry's name |
| Genres.All | client/books/Genre.js:32-34 | six genres, one per table entry in table order, each with its display name and all codes distinct |
| Genres.AsJson | client/books/Genre.js:26-30 | a genre as an object carries its code and, when defined, its display name |
| Books.EncodeBook | client/books/Book.js:10-13 | the book's genre becomes the genre's code, in place; all other fields are unchanged; a book without a readable genre throws |
| Books.DecodeBook | client/books/Book.js:14-19 | the genre code becomes a genre instance and the timestamps become dates, in place; other fields are unchanged; null and primitives throw |
| Books.GenreCodeRoundTrip | client/books/Book.js:10-19 | sending then receiving a book keeps its genre code |
| Books.CodeOutside | client/books/Book.js:21-23 | `isFiction` throws exactly when the genre is unreadable, and is true exactly when the code equals no listed string |
| Books.EveryTableGenreIsFiction | client/books/Book.js:21-23 | as written, every table genre is fiction |
| Books.IsFiction | client/books/Book.js:21-23 | as written, `isFiction` throws exactly when the genre is unreadable, and a readable book is fiction exactly when its code is not the one string `"science, nonFiction"` |
| Books.ScienceIsFictionAsWritten | client/books/Book.js:21-23 | a science book and a non-fiction book are fiction as written and not fiction with the intended list |
| Books.IsFictionIntended | client/books/Book.js:21-23 | with the intended list, a readable book is fiction exactly when its code is neither `science` nor `nonFiction` |
| Books.BookResourceShape | client/books/Book.js:6-33 | the seven actions; `available` is a GET list filtered on `available` with only the response hook; the standard wiring; no warning; `id` reads the instance's `id` |
| Books.SaveRoundTrip | client/books/Book.js:10-19 | the whole path: request hook, server create, response hook. The caller's book is untouched, and the received book has the same genre code and the next id |

## Left out

- The exit code and the error printed when the process ends on a throw are
  not modelled. `Exited` only records that the process ended.
- Sockets, `listen`, `writeHead`/`end`, logging, and the accumulation of the
  request body. The handler starts from a pathname, a method and a collected
  body.
- `url.parse`. The model starts from the pathname.
- A `null` pathname is not modelled.
- Real file reads are replaced by an abstract file map. A read fails exactly
  when the path is absent. Read errors of other kinds, such as a directory, are
  not distinguished.
- JSON's text grammar. Text is either the serialisation of a value or text
  that does not parse.
- Non-integer numbers are not modelled.
- Property order of objects is not modelled.
- `angular.toJson` dropping `$$`-prefixed keys is not modelled.
- `Json.Parse`: its error message is a fixed placeholder. The source's message
  is whatever the JavaScript engine says.
- Router.ParseRoute: a digit group too long for a double is read as an exact
  integer, not as the rounded number `parseInt` gives.
- Store.UpdateEntity: a string id, or an array/object id, would be coerced by
  JavaScript to a number. The model treats these as `NaN`, which gives 404.
  For example, the source would accept the string `"2"`.
- Store.GetEntities: the store is a plain object, so a collection name it
  inherits (`constructor`, `toString`, `__proto__`, `hasOwnProperty` and the
  like) finds an inherited value in the source. The model treats such a name
  as an unknown collection and answers 404. In the source, listing such a
  name calls `filter` on a non-array; the uncaught TypeError ends the process.
- Store.CreateEntity: for an inherited name the source calls `push` on the
  inherited value. That throws and ends the process. The model instead creates
  the collection and answers 200.
- Store.UpdateEntity: for an inherited name the source compares the id with
  the inherited value's `length`. A `null` payload throws reading `id` and ends
  the process. The model answers 404.
- Store.DeleteEntity: for an inherited name within the inherited value's
  `length`, the source writes `null` into that value and answers 200. For
  example, `DELETE /api/constructor/1` does so, since `Object.length` is 1.
  `__proto__` finds `Object.prototype`, which has no `length`, and
  `undefined < id` is false for every id. So `DELETE /api/__proto__/<id>`
  writes `null` into `Object.prototype` and answers 200 for any id. The model
  answers 404 in all these cases.
- Store.NumericId: as with the string ids under Store.UpdateEntity above, it
  gives `None` for a string, array or object id instead of JavaScript's number
  conversion.
- Store.CreateEntity: for an array payload, the `id`, `created` and
  `modified` properties are set on the array but do not show in its JSON. The
  model stores the array unchanged.
- Books.DecodeBook: the same applies to an array.
- `new Date(...)` is the `toDate` parameter. The date values themselves are
  not modelled.
- The `$resource` library itself: invoking actions and building URLs from the
  template. `BindParams` covers only the `@field` convention Book relies on,
  with single field names and no dotted paths.
- `angular.extend` onto the prototype. Instance methods are carried as a set
  of names.
- `$log.warn`. The warning is a returned string.
- A malformed URL template is not rejected at construction. The source does
  not check it either.
- `client/app.js`, the book and books controllers, `client/users/User.js` and
  `Gruntfile.js` are not part of this model. They are UI wiring, a thin library
  call and build configuration.
- Asynchrony and request interleaving. Each request is one atomic step of
  `Run`.

## Findings

| source | as written | input that shows it | evidently intended | confidence | as-written member | corrected member |
|---|---|---|---|---|---|---|
| client/books/Book.js:22 | `['science, nonFiction']` is a list holding one string, so no genre code ever matches it | a book of genre `science` (or `nonFiction`): `isFiction()` is true | `['science', 'nonFiction']`: science and non-fiction books are not fiction | high (not executed) | Books.ScienceIsFictionAsWritten | Books.IsFictionIntended |

The Book resource's instance method is `IsFiction`, modelled as written.
`IsFictionIntended` is the corrected definition.

Two behaviours are also modelled as written, although they may be unintended.
Neither is corrected.

- An update whose payload omits `created` loses it.
- An API request with an unknown verb is never answered (`Unanswered`).

=== FILE: assets.dfy ===
/**
  Static assets: the content type chosen from a file name's extension, and
  the search of the static directories in order. The file system is a map
  from full paths to bytes; a read fails exactly when the path is absent.
*/
module Assets {
  import opened Wrappers
  import opened Http

  type Files = map<string, seq<byte>>

  /** The directories searched for assets, in order. */
  const StaticDirs: seq<string> := ["bower_components/", "client/"]

  /** `s.lastIndexOf(c)`: the last position holding `c`, or -1. */
  function LastIndexOf(s: string, c: char): (r: int)
    ensures -1 <= r < |s|
    ensures r >= 0 ==> s[r] == c
    ensures forall j :: r < j < |s| ==> s[j] != c
  {
    if |s| == 0 then -1
    else if s[|s| - 1] == c then |s| - 1
    else LastIndexOf(s[..|s| - 1], c)
  }

  predicate EndsWith(s: string, suffix: string)
  {
    |suffix| <= |s| && s[|s| - |suffix|..] == suffix
  }

  /** `path.substring(path.lastIndexOf('.'))`; `substring(-1)` is the whole name. */
  function Extension(path: string): (ext: string)
    ensures EndsWith(path, ext)
    ensures '.' !in path ==> ext == path
    ensures '.' in path ==> |ext| > 0 && ext[0] == '.' && '.' !in ext[1..]
  {
    var dot := LastIndexOf(path, '.');
    path[if dot < 0 then 0 else dot..]
  }

  /** Since `js` and `html` hold no `.`, the extension is `.js` (`.html`) exactly when the name ends so. */
  lemma ExtensionBySuffix(path: string)
    ensures Extension(path) == ".js" <==> EndsWith(path, ".js")
    ensures Extension(path) == ".html" <==> EndsWith(path, ".html")
  {
    var dot := LastIndexOf(path, '.');
    if EndsWith(path, ".js") {
      var tail := path[|path| - 3..];
      assert tail[0] == '.' && tail[1] == 'j' && tail[2] == 's';
      assert dot == |path| - 3;
    }
    if EndsWith(path, ".html") {
      var tail := path[|path| - 5..];
      assert tail[0] == '.' && tail[1] == 'h' && tail[2] == 't' && tail[3] == 'm' && tail[4] == 'l';
      assert dot == |path| - 5;
    }
  }

  /**
    `.js` is a script, `.html` a page, anything else plain text; equivalently
    the type is decided by how the name ends.
  */
  function ContentType(path: string): (r: string)
    ensures r == "application/javascript" <==> EndsWith(path, ".js")
    ensures r == "text/html" <==> EndsWith(path, ".html")
    ensures r == "text/plain" <==> !EndsWith(path, ".js") && !EndsWith(path, ".html")
  {
    ExtensionBySuffix(path);
    match Extension(path)
    case ".js" => "application/javascript"
    case ".html" => "text/html"
    case _ => "text/plain"
  }

  /** `assetResponse`: the file's bytes, unchanged, with the type its name calls for. */
  function AssetResponse(file: seq<byte>, path: string): (r: Response)
    ensures r.status == 200 && r.content == Some(Bytes(file))
    ensures r.contentType == Some(ContentType(path))
  {
    Response(200, Some(ContentType(path)), Some(Bytes(file)))
  }

  /** `dirs[i] + path` can be read. */
  predicate Holds(files: Files, dirs: seq<string>, i: int, path: string)
    requires 0 <= i < |dirs|
  {
    dirs[i] + path in files
  }

  /**
    `getAsset`: the first directory from `index` on, in order, that holds
    the file answers; when none does, the plain-text 404.
  */
  function GetAsset(files: Files, dirs: seq<string>, path: string, index: nat): (r: Response)
    ensures r.status == 200 <==> exists i :: index <= i < |dirs| && Holds(files, dirs, i, path)
    ensures r.status != 200 ==> r == NotFound()
    ensures r.status == 200 ==>
      exists i :: index <= i < |dirs| && Holds(files, dirs, i, path)
        && (forall j :: index <= j < i ==> !Holds(files, dirs, j, path))
        && r == AssetResponse(files[dirs[i] + path], path)
    decreases |dirs| - index
  {
    if index >= |dirs| then NotFound()
    else if dirs[index] + path in files then
      assert Holds(files, dirs, index, path);
      AssetResponse(files[dirs[index] + path], path)
    else GetAsset(files, dirs, path, index + 1)
  }
}

=== FILE: books.dfy ===
/**
  The Book resource: `/api/books/:id` with `id` bound to the instance's
  `id`, transformers that send a genre as its code and turn a received code
  back into a genre, an extra `available` action, and the `isFiction`
  instance method.
*/
module Books {
  import opened Wrappers
  import opened Json
  import opened Http
  import opened Transforms
  import opened ResourceFactory
  import opened Genres
  import Store
  import StoreLaws
  import Server
  import Router

  const Url := "/api/books/:id"

  const ParamDefaults: map<string, string> := map["id" := "@id"]

  /** `new Date(v)`: outside the model, so a parameter of the response side. */
  type DateFn = Option<Json> -> Json

  /** `book.genre.code`, `None` when it reads `undefined` or throws. */
  function GenreCode(book: Json): Option<Json>
  {
    match Field(book, "genre")
    case Some(g) => Field(g, "code")
    case None => None
  }

  /** Reading `book.genre.code` throws: the book is no object with a non-null `genre`. */
  predicate GenreUnreadable(book: Json)
  {
    Field(book, "genre").None? || Field(book, "genre") == Some(JNull)
  }

  /**
    The request transformer: the book's `genre` object is replaced by its
    code (a code that reads `undefined` drops the field), in place, and the
    same book is returned.
  */
  function EncodeBook(book: Json): (r: Call)
    ensures r.Returned? <==> !GenreUnreadable(book)
    ensures r.Returned? ==>
      && r.argAfter == r.result
      && r.result.JObj?
      && Field(r.result, "genre") == GenreCode(book)
      && forall k :: k != "genre" ==> Field(r.result, k) == Field(book, k)
  {
    match book
    case JObj(f) =>
      if GenreUnreadable(book) then Threw("TypeError")
      else
        var code := Field(f["genre"], "code");
        var sent := JObj(if code.Some? then f["genre" := code.value] else f - {"genre"});
        Returned(sent, sent)
    case _ => Threw("TypeError")
  }

  /**
    The response transformer: `created` and `modified` become dates and the
    genre code becomes a genre instance, in place. Setting a property of
    `null` or of a primitive throws in strict mode; the properties set on
    an array do not show in its JSON value.
  */
  function DecodeBook(toDate: DateFn, book: Json): (r: Call)
    ensures r.Returned? <==> book.JObj? || book.JArr?
    ensures book.JObj? ==>
      && r.Returned? && r.argAfter == r.result
      && Field(r.result, "genre") == Some(AsJson(New(Field(book, "genre"))))
      && Field(r.result, "created") == Some(toDate(Field(book, "created")))
      && Field(r.result, "modified") == Some(toDate(Field(book, "modified")))
      && forall k :: k !in {"genre", "created", "modified"} ==> Field(r.result, k) == Field(book, k)
    ensures book.JArr? ==> r == Returned(book, book)
  {
    match book
    case JObj(f) =>
      var created := toDate(Field(book, "created"));
      var modified := toDate(Field(book, "modified"));
      var genre := AsJson(New(Field(book, "genre")));
      var received := JObj(f["created" := created]["modified" := modified]["genre" := genre]);
      Returned(received, received)
    case JArr(_) => Returned(book, book)
    case _ => Threw("TypeError")
  }

  /** Sending and receiving a book keeps its genre code (also when the code reads `undefined`). */
  lemma GenreCodeRoundTrip(toDate: DateFn, book: Json)
    requires !GenreUnreadable(book)
    ensures EncodeBook(book).Returned?
    ensures DecodeBook(toDate, EncodeBook(book).result).Returned?
    ensures GenreCode(DecodeBook(toDate, EncodeBook(book).result).result) == GenreCode(book)
  {
  }

  /** The extra `available` action: no method, a list, filtered on `available`. */
  const Available := EmptyAction.(isArray := true, params := map["filter" := "available"])

  const NotFictionAsWritten: seq<string> := ["science, nonFiction"]

  /** `!_.contains(list, this.genre.code)`; `None` when reading the code throws. */
  function CodeOutside(list: seq<string>, book: Json): (r: Option<bool>)
    ensures r.None? <==> GenreUnreadable(book)
    ensures r.Some? ==> (r.value <==> forall i :: 0 <= i < |list| ==> GenreCode(book) != Some(JStr(list[i])))
  {
    if GenreUnreadable(book) then None
    else Some(forall i :: 0 <= i < |list| ==> GenreCode(book) != Some(JStr(list[i])))
  }

  /** `isFiction` as written: the exclusion list is the one string `"science, nonFiction"`. */
  function IsFiction(book: Json): (r: Option<bool>)
    ensures r.None? <==> GenreUnreadable(book)
    ensures r.Some? ==> (r.value <==> GenreCode(book) != Some(JStr("science, nonFiction")))
  {
    assert |NotFictionAsWritten| == 1 && NotFictionAsWritten[0] == "science, nonFiction";
    assert (forall i :: 0 <= i < |NotFictionAsWritten| ==> GenreCode(book) != Some(JStr(NotFictionAsWritten[i])))
      <==> GenreCode(book) != Some(JStr("science, nonFiction"));
    CodeOutside(NotFictionAsWritten, book)
  }

  /** A book instance of the given genre. */
  function BookOf(g: Genre): Json
  {
    JObj(map["genre" := AsJson(g)])
  }

  /** Every table code is shorter than the one string of the as-written list. */
  lemma TableCodesShort()
    ensures forall i :: 0 <= i < |PropsByCode| ==> |PropsByCode[i].0| < |"science, nonFiction"|
  {
  }

  /** The book of a genre has that genre's code, readable. */
  lemma GenreOfBookOf(g: Genre)
    ensures !GenreUnreadable(BookOf(g)) && GenreCode(BookOf(g)) == g.code
  {
    assert Field(BookOf(g), "genre") == Some(AsJson(g));
  }

  /** As written, every table genre counts as fiction, science and non-fiction included. */
  lemma EveryTableGenreIsFiction()
    ensures forall i :: 0 <= i < |All()| ==> IsFiction(BookOf(All()[i])) == Some(true)
  {
    var all := All();
    TableCodesShort();
    forall i | 0 <= i < |all|
      ensures IsFiction(BookOf(all[i])) == Some(true)
    {
      var code := PropsByCode[i].0;
      GenreOfBookOf(all[i]);
      assert code != "science, nonFiction" by {
        assert |code| < |"science, nonFiction"|;
      }
    }
  }

  /**
    Concretely: a science book and a non-fiction book are called fiction as
    written, and not with the intended list.
  */
  lemma ScienceIsFictionAsWritten(book: Json)
    requires GenreCode(book) in {Some(JStr("science")), Some(JStr("nonFiction"))}
    ensures IsFiction(book) == Some(true)
    ensures IsFictionIntended(book) == Some(false)
  {
    assert !GenreUnreadable(book);
    assert "science" != "science, nonFiction" by {
      assert |"science"| == 7 && |"science, nonFiction"| == 19;
    }
    assert "nonFiction" != "science, nonFiction" by {
      assert "nonFiction"[0] == 'n' && "science, nonFiction"[0] == 's';
    }
  }

  const NotFiction: seq<string> := ["science", "nonFiction"]

  /** `isFiction` with the two codes the exclusion list evidently means. */
  function IsFictionIntended(book: Json): (r: Option<bool>)
    ensures r.None? <==> GenreUnreadable(book)
    ensures r.Some? ==>
      (r.value <==> GenreCode(book) != Some(JStr("science")) && GenreCode(book) != Some(JStr("nonFiction")))
  {
    assert |NotFiction| == 2 && NotFiction[0] == "science" && NotFiction[1] == "nonFiction";
    assert (forall j :: 0 <= j < |NotFiction| ==> GenreCode(book) != Some(JStr(NotFiction[j])))
      <==> GenreCode(book) != Some(JStr("science")) && GenreCode(book) != Some(JStr("nonFiction"));
    CodeOutside(NotFiction, book)
  }

  /** The options the Book resource is made with. */
  function BookOptions(toDate: DateFn): Options
  {
    Options(
      ParamDefaults,
      Some(EncodeBook),
      Some(book => DecodeBook(toDate, book)),
      [("available", Available)],
      map[],
      {"isFiction"})
  }

  function BookResource(toDate: DateFn): Built
  {
    MakeResource(Url, BookOptions(toDate))
  }

  /**
    The Book resource has the six standard actions plus `available`, which
    is wired like a GET list with the response hook only; reads carry the
    response hook, `save` and `update` both, deletes neither; no warning is
    logged; and the `id` parameter reads the instance's `id`.
  */
  lemma BookResourceShape(toDate: DateFn, instance: Json)
    ensures var b := BookResource(toDate);
      var actions := b.resource.actions;
      var decode := MakeResponseTransformer(book => DecodeBook(toDate, book));
      var encode := MakeRequestTransformer(EncodeBook);
      && actions.Keys == BuiltInNames + {"available"}
      && b.warnings == []
      && EffectiveMethod(actions["available"]) == "GET"
      && actions["available"].isArray
      && actions["available"].params == map["filter" := "available"]
      && actions["available"].transformResponse == Some(decode)
      && actions["available"].transformRequest.None?
      && (forall n :: n in {"get", "query"} ==>
            actions[n].transformResponse == Some(decode) && actions[n].transformRequest.None?)
      && (forall n :: n in {"save", "update"} ==>
            actions[n].transformResponse == Some(decode) && actions[n].transformRequest == Some(encode))
      && (forall n :: n in {"delete", "remove"} ==>
            actions[n].transformResponse.None? && actions[n].transformRequest.None?)
      && BindParams(b.resource.paramDefaults, instance)["id"] == Field(instance, "id")
  {
    var o := BookOptions(toDate);
    var extras := o.extraActions;
    assert LastAction(extras, "available") == Some(Available);
    forall n | n in BuiltInNames
      ensures LastAction(extras, n).None?
    {
      assert extras[..0] == [];
    }
    assert AllKnown(extras) by {
      assert WiringFor(EffectiveMethod(Available)) == WiringTable["GET"];
    }
    assert "@id"[1..] == "id";
  }

  /**
    Saving a book end to end: the request hook sends the book with its genre
    as a code, the server stores it under the next id in any collection,
    and the response hook turns the answer back into a book with the same
    genre code and that id.
  */
  lemma SaveRoundTrip(toDate: DateFn, s: Store.Entities, files: map<string, seq<byte>>, name: string, book: Json, now: int)
    requires Server.RoutableName(name)
    requires !GenreUnreadable(book)
    ensures var sent := EncodeWith(EncodeBook, book);
      && sent.Sent? && sent.entityAfter == book
      && var o := Server.Handle(s, files, Server.Request("POST", "/api/" + name, sent.body), now);
      && StoreLaws.ReplyRecord(o.reply).Some?
      && var received := DecodeWith(book => DecodeBook(toDate, book), Encoded(StoreLaws.ReplyRecord(o.reply).value));
      && received.Ok?
      && GenreCode(received.value) == GenreCode(book)
      && Field(received.value, "id") == Some(JNum(StoreLaws.NextId(s, name)))
  {
    var sent := EncodeWith(EncodeBook, book);
    var payload := EncodeBook(book).result;
    assert sent.body == Encoded(payload);
    Router.ApiRouteWithoutId(name);
    var o := Server.Handle(s, files, Server.Request("POST", "/api/" + name, sent.body), now);
    assert o == Store.CreateEntity(s, name, payload, now);
    StoreLaws.GetAfterCreate(s, name, payload, now);
    var record := StoreLaws.ReplyRecord(o.reply).value;
    assert Field(record, "genre") == Field(payload, "genre");
  }
}

=== FILE: genres.dfy ===
/**
  Book genres: a fixed table from genre code to display name, a
  constructor that records the code and copies the table entry's display
  name when the code is in the table, and the list of all table genres.
*/
module Genres {
  import opened Wrappers
  import opened Json

  /** `propsByCode`, in declaration order: code and display name. */
  const PropsByCode: seq<(string, string)> := [
    ("horror", "Horror"),
    ("fantasy", "Fantasy"),
    ("historicalFiction", "Historical Fiction"),
    ("scienceFiction", "Science Fiction"),
    ("nonFiction", "Non-fiction"),
    ("science", "Science")]

  /** A genre instance; a code read from a missing field is `None` (`undefined`). */
  datatype Genre = Genre(code: Option<Json>, display: Option<string>)

  /**
    The property key `propsByCode[code]` reads, when it can name a table
    entry: a string is its own key and a one-element array converts to its
    element's key. Every other value converts to a string that holds a
    character no table code has, or to `undefined`, `null`, `true` or
    `false`, so it misses the table.
  */
  function TableKey(code: Option<Json>): Option<string>
  {
    if code.Some? then ValueKey(code.value) else None
  }

  function ValueKey(v: Json): Option<string>
  {
    match v
    case JStr(s) => Some(s)
    case JArr(items) => if |items| == 1 && !items[0].JNull? then ValueKey(items[0]) else None
    case _ => None
  }

  predicate IsCode(key: string)
  {
    exists i :: 0 <= i < |PropsByCode| && PropsByCode[i].0 == key
  }

  /** The display name of a table code. */
  function DisplayOf(key: string, table: seq<(string, string)>): (r: Option<string>)
    ensures r.Some? <==> exists i :: 0 <= i < |table| && table[i].0 == key
    ensures r.Some? ==> exists i :: 0 <= i < |table| && table[i] == (key, r.value)
  {
    if |table| == 0 then None
    else if table[0].0 == key then Some(table[0].1)
    else
      var r := DisplayOf(key, table[1..]);
      assert forall i :: 1 <= i < |table| ==> table[i] == table[1..][i - 1];
      r
  }

  /** No code appears twice in the table. */
  lemma CodesDistinct()
    ensures forall i, j :: 0 <= i < j < |PropsByCode| ==> PropsByCode[i].0 != PropsByCode[j].0
  {
  }

  /**
    `new Genre(code)`: the code as given, and the table's display name
    exactly when the code names a table entry.
  */
  function New(code: Option<Json>): (g: Genre)
    ensures g.code == code
    ensures g.display.Some? <==> TableKey(code).Some? && IsCode(TableKey(code).value)
    ensures forall i :: 0 <= i < |PropsByCode| && TableKey(code) == Some(PropsByCode[i].0) ==>
      g.display == Some(PropsByCode[i].1)
  {
    var key := TableKey(code);
    var display := if key.Some? then DisplayOf(key.value, PropsByCode) else None;
    CodesDistinct();
    Genre(code, display)
  }

  /** `Genre.all`: one genre per table entry, in table order, each with its display name. */
  function All(): (r: seq<Genre>)
    ensures |r| == |PropsByCode| == 6
    ensures forall i :: 0 <= i < |r| ==>
      r[i].code == Some(JStr(PropsByCode[i].0)) && r[i].display == Some(PropsByCode[i].1)
    ensures forall i, j :: 0 <= i < j < |r| ==> r[i].code != r[j].code
  {
    CodesDistinct();
    seq(|PropsByCode|, i requires 0 <= i < |PropsByCode| => New(Some(JStr(PropsByCode[i].0))))
  }

  /** A genre instance as an object: `code` and `display` when defined. */
  function AsJson(g: Genre): (j: Json)
    ensures j.JObj? && Field(j, "code") == g.code
    ensures (Field(j, "display").Some? <==> g.display.Some?)
    ensures g.display.Some? ==> Field(j, "display") == Some(JStr(g.display.value))
  {
    var withCode: map<string, Json> := if g.code.Some? then map["code" := g.code.value] else map[];
    JObj(if g.display.Some? then withCode["display" := JStr(g.display.value)] else withCode)
  }
}

=== FILE: http.dfy ===
/** The response record of the server and what became of a request. */
module Http {
  import opened Wrappers
  import opened Json

  newtype byte = b: int | 0 <= b < 256

  /** A response body: file bytes, plain text, or JSON text. */
  datatype Content = Bytes(data: seq<byte>) | Text(text: string) | Doc(wire: Wire)

  /** The server's `Response(status, contentType, content)`; absent arguments are `None`. */
  datatype Response = Response(status: int, contentType: Option<string>, content: Option<Content>)

  /**
    What happened to a request: it was answered, it was never answered
    (an unhandled verb), or a callback threw. Nothing catches such a throw,
    so it ends the server process.
  */
  datatype Reply = Answered(response: Response) | Unanswered | Thrown(error: string)

  const JsonType := "application/json"

  /** `notFoundResponse`: the asset miss, with a plain-text body. */
  function NotFound(): (r: Response)
    ensures r.status == 404 && r.contentType == Some("text/plain") && r.content == Some(Text("Not found"))
  {
    Response(404, Some("text/plain"), Some(Text("Not found")))
  }

  /** `apiNotFoundResponse`: status only, no content type and no body. */
  function ApiNotFound(): (r: Response)
    ensures r.status == 404 && r.contentType.None? && r.content.None?
    ensures r != NotFound()
  {
    Response(404, None, None)
  }

  /** `apiJsonResponse`: 200 with the value as JSON. */
  function ApiJson(val: Json): (r: Response)
    ensures r.status == 200 && r.contentType == Some(JsonType)
    ensures r.content.Some? && r.content.value.Doc? && Parse(r.content.value.wire) == Ok(val)
  {
    Response(200, Some(JsonType), Some(Doc(Stringify(val))))
  }

  /** `badRequest`: 400 with a JSON object holding `message`. */
  function BadRequest(message: string): (r: Response)
    ensures r.status == 400 && r.contentType == Some(JsonType)
    ensures r.content.Some? && r.content.value.Doc?
    ensures var body := Parse(r.content.value.wire);
      body.Ok? && body.value.JObj? && body.value.fields.Keys == {"message"}
      && Field(body.value, "message") == Some(JStr(message))
  {
    Response(400, Some(JsonType), Some(Doc(Stringify(JObj(map["message" := JStr(message)])))))
  }

  /** The bare `Response(200)` of a successful delete. */
  function Deleted(): (r: Response)
    ensures r.status == 200 && r.contentType.None? && r.content.None?
  {
    Response(200, None, None)
  }
}

=== FILE: json.dfy ===
/**
  JSON values as both halves of the system exchange them, and the wire text
  that carries them.

  Serialisation is abstract: the text produced by stringifying a value is
  represented by `Encoded(value)`, and any text that is not the serialisation
  of a value is `Malformed(text)`. Parsing therefore inverts stringifying and
  fails exactly on malformed text.
*/
module Json {
  import opened Wrappers

  /** A JSON value. Numbers are integers; object keys are unordered. */
  datatype Json =
    | JNull
    | JBool(b: bool)
    | JNum(n: int)
    | JStr(s: string)
    | JArr(items: seq<Json>)
    | JObj(fields: map<string, Json>)

  /** Text on the wire. */
  datatype Wire = Encoded(value: Json) | Malformed(text: string)

  /** `JSON.stringify` / `angular.toJson`. */
  function Stringify(j: Json): Wire
  {
    Encoded(j)
  }

  /** `JSON.parse` / `angular.fromJson`: fails on text that is not JSON. */
  function Parse(w: Wire): (r: Result<Json>)
    ensures r.Ok? <==> w.Encoded?
    ensures r.Err? ==> r.message == "SyntaxError"
  {
    match w
    case Encoded(j) => Ok(j)
    case Malformed(_) => Err("SyntaxError")
  }

  /** JavaScript truthiness (`!!v`) of a JSON value: all but the falsy values `null`, `false`, `0` and `""`. */
  function Truthy(j: Json): (t: bool)
    ensures !t <==> j in {JNull, JBool(false), JNum(0), JStr("")}
  {
    match j
    case JNull => false
    case JBool(b) => b
    case JNum(n) => n != 0
    case JStr(s) => |s| > 0
    case JArr(_) => true
    case JObj(_) => true
  }

  /** Property read `v.key`: only objects have own fields here; a miss is `undefined`. */
  function Field(j: Json, key: string): (r: Option<Json>)
    ensures r.Some? <==> j.JObj? && key in j.fields
    ensures r.Some? ==> r.value == j.fields[key]
  {
    match j
    case JObj(f) => if key in f then Some(f[key]) else None
    case _ => None
  }
}

=== FILE: resource_factory.dfy ===
/**
  The resource factory: `makeAction` wires the generated transformers into
  one action descriptor according to its HTTP method, and `makeResource`
  builds the six standard actions and merges the caller's extra actions
  over them by name, the later definition winning.
*/
module ResourceFactory {
  import opened Wrappers
  import opened Json
  import opened Transforms

  const DefaultMethod := "GET"

  /**
    An action descriptor: its `method`, `isArray`, `params`, the two
    transformer hooks, and every other property, which is copied as is.
  */
  datatype Action = Action(
    verb: Option<string>,
    isArray: bool,
    params: map<string, string>,
    transformRequest: Option<RequestHook>,
    transformResponse: Option<ResponseHook>,
    settings: map<string, Json>)

  /** The empty action `{}`. */
  const EmptyAction := Action(None, false, map[], None, None, map[])

  /** The transformers generated once per resource; `None` when the option was not given. */
  datatype Generated = Generated(request: Option<RequestHook>, response: Option<ResponseHook>)

  /** A wired action and the warning logged while wiring it, if any. */
  datatype Made = Made(action: Action, warning: Option<string>)

  /** `action.method || 'GET'`: a missing or empty method is GET. */
  function EffectiveMethod(a: Action): (m: string)
    ensures a.verb.None? || a.verb.value == "" ==> m == DefaultMethod
    ensures a.verb.Some? && a.verb.value != "" ==> m == a.verb.value
  {
    if a.verb.None? || a.verb.value == "" then DefaultMethod else a.verb.value
  }

  /** Which hooks an HTTP method carries, and whether the method is one the factory knows. */
  datatype Wiring = Wiring(request: bool, response: bool, known: bool)

  /**
    The wiring policy: reads get the response hook only, POST and PUT get
    both, DELETE neither, and any other method the response hook only.
  */
  const WiringTable: map<string, Wiring> := map[
    "GET" := Wiring(false, true, true),
    "POST" := Wiring(true, true, true),
    "PUT" := Wiring(true, true, true),
    "DELETE" := Wiring(false, false, true)]

  const UnknownWiring := Wiring(false, true, false)

  function WiringFor(m: string): Wiring
  {
    if m in WiringTable then WiringTable[m] else UnknownWiring
  }

  /**
    `makeAction`: a copy of the action whose hooks are replaced by the
    generated ones that its method calls for and that exist; nothing else
    changes. An unknown method is wired like GET and logs a warning.
  */
  function MakeAction(a: Action, g: Generated): (r: Made)
    ensures var w := WiringFor(EffectiveMethod(a));
      && r.action.transformRequest == (if w.request && g.request.Some? then g.request else a.transformRequest)
      && r.action.transformResponse == (if w.response && g.response.Some? then g.response else a.transformResponse)
      && r.warning == (if w.known then None else Some("Unknown HTTP method: " + EffectiveMethod(a)))
    ensures r.action.(transformRequest := a.transformRequest, transformResponse := a.transformResponse) == a
  {
    var copy := a;
    var m := EffectiveMethod(a);
    match m
    case "GET" =>
      Made(if g.response.Some? then copy.(transformResponse := g.response) else copy, None)
    case "POST" =>
      Made(WireBoth(copy, g), None)
    case "PUT" =>
      Made(WireBoth(copy, g), None)
    case "DELETE" =>
      Made(copy, None)
    case _ =>
      Made(if g.response.Some? then copy.(transformResponse := g.response) else copy,
           Some("Unknown HTTP method: " + m))
  }

  /** The POST/PUT branch: both hooks, each only when generated. */
  function WireBoth(a: Action, g: Generated): Action
  {
    var withResponse := if g.response.Some? then a.(transformResponse := g.response) else a;
    if g.request.Some? then withResponse.(transformRequest := g.request) else withResponse
  }

  /** Without generated transformers an action passes through unchanged. */
  lemma MakeActionWithoutTransformers(a: Action)
    ensures MakeAction(a, Generated(None, None)).action == a
  {
  }

  /** No name occurs twice. */
  predicate DistinctNames(entries: seq<(string, Action)>)
  {
    forall i, j :: 0 <= i < j < |entries| ==> entries[i].0 != entries[j].0
  }

  /**
    The extra actions as an object holds them: its own entries in key
    order, one action per name.
  */
  type Extras = entries: seq<(string, Action)> | DistinctNames(entries) witness []

  /** The options bag of `makeResource`. */
  datatype Options = Options(
    params: map<string, string>,
    requestTransformer: Option<UserFn>,
    responseTransformer: Option<UserFn>,
    extraActions: Extras,
    options: map<string, Json>,
    prototype: set<string>)

  /** What is handed to the resource library: url, parameter defaults, actions, options, and the instance methods. */
  datatype Resource = Resource(
    url: string,
    paramDefaults: map<string, string>,
    actions: map<string, Action>,
    options: map<string, Json>,
    prototype: set<string>)

  datatype Built = Built(resource: Resource, warnings: seq<string>)

  /** The transformers generated once for all actions. */
  function GeneratedFrom(o: Options): (g: Generated)
    ensures g.request.Some? <==> o.requestTransformer.Some?
    ensures g.response.Some? <==> o.responseTransformer.Some?
  {
    Generated(
      if o.requestTransformer.Some? then Some(MakeRequestTransformer(o.requestTransformer.value)) else None,
      if o.responseTransformer.Some? then Some(MakeResponseTransformer(o.responseTransformer.value)) else None)
  }

  const BuiltInNames: set<string> := {"get", "query", "save", "update", "delete", "remove"}

  /**
    The six standard actions: `get` and `query` (an array) read with the
    response hook only, `save` (POST) and `update` (PUT) carry both hooks,
    `delete` and `remove` (DELETE) neither.
  */
  function BuiltInActions(g: Generated): (r: map<string, Action>)
    ensures r.Keys == BuiltInNames
    ensures EffectiveMethod(r["get"]) == "GET" && !r["get"].isArray
    ensures EffectiveMethod(r["query"]) == "GET" && r["query"].isArray
    ensures r["save"].verb == Some("POST") && r["update"].verb == Some("PUT")
    ensures r["delete"].verb == Some("DELETE") && r["remove"].verb == Some("DELETE")
    ensures forall n :: n in {"get", "query"} ==>
      r[n].transformResponse == g.response && r[n].transformRequest.None?
    ensures forall n :: n in {"save", "update"} ==>
      r[n].transformResponse == g.response && r[n].transformRequest == g.request
    ensures forall n :: n in {"delete", "remove"} ==>
      r[n].transformResponse.None? && r[n].transformRequest.None?
  {
    map[
      "get" := MakeAction(EmptyAction, g).action,
      "query" := MakeAction(EmptyAction.(isArray := true), g).action,
      "save" := MakeAction(EmptyAction.(verb := Some("POST")), g).action,
      "update" := MakeAction(EmptyAction.(verb := Some("PUT")), g).action,
      "delete" := MakeAction(EmptyAction.(verb := Some("DELETE")), g).action,
      "remove" := MakeAction(EmptyAction.(verb := Some("DELETE")), g).action]
  }

  /** The last action given under `name`, if any: the one an object literal keeps. */
  function LastAction(extras: seq<(string, Action)>, name: string): Option<Action>
  {
    if |extras| == 0 then None
    else if extras[|extras| - 1].0 == name then Some(extras[|extras| - 1].1)
    else LastAction(extras[..|extras| - 1], name)
  }

  /** Looking from the front: a later definition hides the first one. */
  lemma {:induction false} LastActionFromFront(extras: seq<(string, Action)>, name: string)
    requires |extras| > 0
    ensures LastAction(extras, name) ==
      if LastAction(extras[1..], name).Some? then LastAction(extras[1..], name)
      else if extras[0].0 == name then Some(extras[0].1)
      else None
  {
    if |extras| > 1 {
      var init := extras[..|extras| - 1];
      assert init[1..] == extras[1..][..|extras[1..]| - 1];
      assert init[0] == extras[0];
      LastActionFromFront(init, name);
    }
  }

  /** With distinct names, the action looked up under an entry's name is that entry's. */
  lemma {:induction false} LastActionOfEntry(entries: seq<(string, Action)>, i: int)
    requires DistinctNames(entries) && 0 <= i < |entries|
    ensures LastAction(entries, entries[i].0) == Some(entries[i].1)
    decreases |entries|
  {
    if i < |entries| - 1 {
      var init := entries[..|entries| - 1];
      assert init[i] == entries[i];
      assert entries[|entries| - 1].0 != entries[i].0;
      LastActionOfEntry(init, i);
    }
  }

  /** An action looked up under a name is the last entry of that name. */
  lemma {:induction false} LastActionFound(entries: seq<(string, Action)>, name: string)
    requires LastAction(entries, name).Some?
    ensures exists i :: 0 <= i < |entries| && entries[i] == (name, LastAction(entries, name).value)
    decreases |entries|
  {
    var last := |entries| - 1;
    if entries[last].0 != name {
      var init := entries[..last];
      LastActionFound(init, name);
      var i :| 0 <= i < |init| && init[i] == (name, LastAction(init, name).value);
      assert entries[i] == init[i];
    }
  }

  /** Every extra action's method is one of the four the factory knows. */
  predicate AllKnown(extras: seq<(string, Action)>)
  {
    forall i :: 0 <= i < |extras| ==> WiringFor(EffectiveMethod(extras[i].1)).known
  }

  /** Every entry's method is known exactly when the action kept under every name has a known method. */
  lemma AllKnownByName(extras: Extras)
    ensures AllKnown(extras) <==>
      forall n :: LastAction(extras, n).Some? ==> WiringFor(EffectiveMethod(LastAction(extras, n).value)).known
  {
    if AllKnown(extras) {
      forall n | LastAction(extras, n).Some?
        ensures WiringFor(EffectiveMethod(LastAction(extras, n).value)).known
      {
        LastActionFound(extras, n);
      }
    } else {
      var i :| 0 <= i < |extras| && !WiringFor(EffectiveMethod(extras[i].1)).known;
      LastActionOfEntry(extras, i);
    }
  }

  /**
    `_.reduce` of the extra actions into the accumulated actions: each is
    wired and stored under its name, so the last action given under a name
    wins and names never given keep their earlier action. Returns the
    warnings logged, in order.
  */
  function Merge(acc: map<string, Action>, extras: Extras, g: Generated): (r: (map<string, Action>, seq<string>))
    ensures forall n :: n in r.0 <==> n in acc || LastAction(extras, n).Some?
    ensures forall n :: n in r.0 ==>
      r.0[n] == if LastAction(extras, n).Some? then MakeAction(LastAction(extras, n).value, g).action else acc[n]
    ensures |r.1| <= |extras|
    ensures r.1 == [] <==> AllKnown(extras)
    decreases |extras|
  {
    if |extras| == 0 then (acc, [])
    else
      var made := MakeAction(extras[0].1, g);
      var tail: Extras := extras[1..];
      var rest := Merge(acc[extras[0].0 := made.action], tail, g);
      forall n ensures LastAction(extras, n) ==
        if LastAction(extras[1..], n).Some? then LastAction(extras[1..], n)
        else if extras[0].0 == n then Some(extras[0].1)
        else None
      {
        LastActionFromFront(extras, n);
      }
      assert AllKnown(extras) <==> WiringFor(EffectiveMethod(extras[0].1)).known && AllKnown(extras[1..]) by {
        assert forall i :: 1 <= i < |extras| ==> extras[i] == extras[1..][i - 1];
      }
      (rest.0, (if made.warning.Some? then [made.warning.value] else []) + rest.1)
  }

  /**
    `makeResource`: the standard actions are always present; an extra
    action replaces a standard one of the same name and is wired by its
    own method like any other; url, parameter defaults, options and
    instance methods are passed on as given. A warning is logged exactly
    when the action of some extra name has a method the factory does not
    know.
  */
  function MakeResource(url: string, o: Options): (r: Built)
    ensures r.resource.url == url && r.resource.paramDefaults == o.params
    ensures r.resource.options == o.options && r.resource.prototype == o.prototype
    ensures BuiltInNames <= r.resource.actions.Keys
    ensures forall n :: n in r.resource.actions <==> n in BuiltInNames || LastAction(o.extraActions, n).Some?
    ensures forall n :: n in BuiltInNames && LastAction(o.extraActions, n).None? ==>
      r.resource.actions[n] == BuiltInActions(GeneratedFrom(o))[n]
    ensures forall n :: LastAction(o.extraActions, n).Some? ==>
      r.resource.actions[n] == MakeAction(LastAction(o.extraActions, n).value, GeneratedFrom(o)).action
    ensures o.requestTransformer.None? && o.responseTransformer.None? ==>
      forall n :: LastAction(o.extraActions, n).Some? ==> r.resource.actions[n] == LastAction(o.extraActions, n).value
    ensures r.warnings == [] <==>
      forall n :: LastAction(o.extraActions, n).Some? ==> WiringFor(EffectiveMethod(LastAction(o.extraActions, n).value)).known
  {
    var g := GeneratedFrom(o);
    var all := Merge(BuiltInActions(g), o.extraActions, g);
    AllKnownByName(o.extraActions);
    Built(Resource(url, o.params, all.0, o.options, o.prototype), all.1)
  }

  /**
    How the resource library fills a parameter default from an instance: a
    value `@field` reads that field of the instance, any other value is
    used literally.
  */
  function BindParams(defaults: map<string, string>, instance: Json): (r: map<string, Option<Json>>)
    ensures r.Keys == defaults.Keys
    ensures forall k :: k in defaults && |defaults[k]| > 0 && defaults[k][0] == '@' ==>
      r[k] == Field(instance, defaults[k][1..])
    ensures forall k :: k in defaults && (|defaults[k]| == 0 || defaults[k][0] != '@') ==>
      r[k] == Some(JStr(defaults[k]))
  {
    map k | k in defaults ::
      var v := defaults[k];
      if |v| > 0 && v[0] == '@' then Field(instance, v[1..]) else Some(JStr(v))
  }
}

=== FILE: router.dfy ===
/**
  Route parsing of the request handler. A pathname is an asset request
  when it matches `/^\/assets\/(.*)/i`, an API call when it matches
  `/^\/api\/([^/]+)\/?([\d]{0,})/i`, and the index page otherwise. The id
  of an API call is `parseInt` of the digit group, `NaN` (here `None`) when
  the group is empty; text after the digits is ignored.
*/
module Router {
  import opened Wrappers

  datatype Route =
    | AssetRoute(file: string)
    | ApiRoute(name: string, id: Option<nat>)
    | IndexRoute

  /** Case folding of the `i` flag: only ASCII letters fold. */
  function AsciiLower(c: char): char
  {
    if 'A' <= c <= 'Z' then (c as int + 32) as char else c
  }

  predicate StartsWithIgnoringCase(s: string, prefix: string)
  {
    |prefix| <= |s| && forall i :: 0 <= i < |prefix| ==> AsciiLower(s[i]) == AsciiLower(prefix[i])
  }

  /** The characters `.` does not match. */
  predicate IsLineTerminator(c: char)
  {
    c == '\n' || c == '\r' || c == '\U{2028}' || c == '\U{2029}'
  }

  predicate IsDigit(c: char)
  {
    '0' <= c <= '9'
  }

  /** The longest prefix of `s` whose characters all satisfy `p` (a greedy `p*`). */
  function TakeWhile(s: string, p: char -> bool): (r: string)
    ensures r <= s
    ensures forall i :: 0 <= i < |r| ==> p(r[i])
    ensures |r| < |s| ==> !p(s[|r|])
  {
    if |s| == 0 || !p(s[0]) then [] else [s[0]] + TakeWhile(s[1..], p)
  }

  /** A run of `p` characters followed by a stop is what `TakeWhile` takes. */
  lemma {:induction false} TakeWhileStops(a: string, b: string, p: char -> bool)
    requires forall i :: 0 <= i < |a| ==> p(a[i])
    requires |b| == 0 || !p(b[0])
    ensures TakeWhile(a + b, p) == a
  {
    if |a| > 0 {
      assert (a + b)[1..] == a[1..] + b;
      TakeWhileStops(a[1..], b, p);
    } else {
      assert a + b == b;
    }
  }

  function Pow10(k: nat): (r: nat)
    ensures r >= 1
  {
    if k == 0 then 1 else 10 * Pow10(k - 1)
  }

  /** `parseInt(digits, 10)` of a non-empty run of decimal digits: below `10^k` for `k` digits. */
  function DigitsValue(digits: string): (r: nat)
    ensures (forall i :: 0 <= i < |digits| ==> IsDigit(digits[i])) ==> r < Pow10(|digits|)
  {
    if |digits| == 0 then 0
    else
      var d := digits[|digits| - 1] as int - '0' as int;
      DigitsValue(digits[..|digits| - 1]) * 10 + (if 0 <= d then d else 0)
  }

  /** The decimal numeral of `n`, without leading zeros. */
  function Decimal(n: nat): (r: string)
    ensures |r| > 0 && forall i :: 0 <= i < |r| ==> IsDigit(r[i])
  {
    var last := ('0' as int + n % 10) as char;
    if n < 10 then [last] else Decimal(n / 10) + [last]
  }

  /** Reading back a numeral gives its number. */
  lemma {:induction false} DigitsValueOfDecimal(n: nat)
    ensures DigitsValue(Decimal(n)) == n
  {
    var r := Decimal(n);
    assert r[..|r| - 1] == if n < 10 then [] else Decimal(n / 10);
    if n >= 10 {
      DigitsValueOfDecimal(n / 10);
    }
  }

  lemma ShiftDigit(x: int, p: int, y: int, d: int)
    ensures (x * p + y) * 10 + d == x * (10 * p) + (y * 10 + d)
  {
  }

  /** `parseInt` reads digits left to right: the value of `a + b` shifts `a` past `b`'s digits. */
  lemma {:induction false} DigitsValueConcat(a: string, b: string)
    ensures DigitsValue(a + b) == DigitsValue(a) * Pow10(|b|) + DigitsValue(b)
    decreases |b|
  {
    if |b| == 0 {
      assert a + b == a;
    } else {
      var c := a + b;
      var b' := b[..|b| - 1];
      assert c[..|c| - 1] == a + b';
      assert c[|c| - 1] == b[|b| - 1];
      DigitsValueConcat(a, b');
      ShiftDigit(DigitsValue(a), Pow10(|b'|), DigitsValue(b'), var d := b[|b| - 1] as int - '0' as int; if 0 <= d then d else 0);
    }
  }

  /** A run of zeros reads as 0. */
  lemma {:induction false} DigitsValueOfZeros(z: nat)
    ensures DigitsValue(seq(z, _ => '0')) == 0
  {
    if z > 0 {
      var zeros := seq(z, _ => '0');
      assert zeros[..z - 1] == seq(z - 1, _ => '0');
      DigitsValueOfZeros(z - 1);
    }
  }

  /** Leading zeros do not change the value: `parseInt("007")` is 7 and `parseInt("00")` is 0. */
  lemma DigitsValueOfPadded(z: nat, n: nat)
    ensures DigitsValue(seq(z, _ => '0') + Decimal(n)) == n
  {
    DigitsValueConcat(seq(z, _ => '0'), Decimal(n));
    DigitsValueOfZeros(z);
    DigitsValueOfDecimal(n);
  }

  /** The id group: after an optional `/`, the longest digit run, `parseInt`ed. */
  function RouteId(after: string): (r: Option<nat>)
    ensures r.None? <==>
      if |after| > 0 && after[0] == '/' then |after| == 1 || !IsDigit(after[1])
      else |after| == 0 || !IsDigit(after[0])
  {
    var tail := if |after| > 0 && after[0] == '/' then after[1..] else after;
    var digits := TakeWhile(tail, IsDigit);
    if |digits| == 0 then None else Some(DigitsValue(digits))
  }

  function ParseRoute(path: string): (r: Route)
    ensures r.AssetRoute? <==> StartsWithIgnoringCase(path, "/assets/")
    ensures r.AssetRoute? ==>
      && r.file <= path[8..]
      && (forall i :: 0 <= i < |r.file| ==> !IsLineTerminator(r.file[i]))
      && (|r.file| < |path| - 8 ==> IsLineTerminator(path[8 + |r.file|]))
    ensures r.ApiRoute? <==>
      !StartsWithIgnoringCase(path, "/assets/") && StartsWithIgnoringCase(path, "/api/")
      && |path| > 5 && path[5] != '/'
    ensures r.ApiRoute? ==>
      && |r.name| > 0
      && r.name <= path[5..]
      && (forall i :: 0 <= i < |r.name| ==> r.name[i] != '/')
      && (|r.name| < |path| - 5 ==> path[5 + |r.name|] == '/')
      && r.id == RouteId(path[5 + |r.name|..])
  {
    if StartsWithIgnoringCase(path, "/assets/") then
      AssetRoute(TakeWhile(path[8..], c => !IsLineTerminator(c)))
    else if StartsWithIgnoringCase(path, "/api/") && |path| > 5 && path[5] != '/' then
      var name := TakeWhile(path[5..], c => c != '/');
      ApiRoute(name, RouteId(path[5 + |name|..]))
    else IndexRoute
  }

  /** A path `/api/<name><after>` whose name stops at `after` is an API call on `name`. */
  lemma ApiRouteOf(name: string, after: string)
    requires |name| > 0 && forall i :: 0 <= i < |name| ==> name[i] != '/'
    requires |after| == 0 || after[0] == '/'
    ensures ParseRoute("/api/" + name + after) == ApiRoute(name, RouteId(after))
  {
    var path := "/api/" + name + after;
    assert path[2] == 'p';
    assert AsciiLower(path[2]) != AsciiLower("/assets/"[2]);
    assert path[..5] == "/api/";
    assert path[5..] == name + after;
    TakeWhileStops(name, after, c => c != '/');
    assert path[5 + |name|..] == after;
  }

  /** After a `/`, the id group is the digit run that follows it. */
  lemma RouteIdAfterSlash(tail: string)
    ensures var digits := TakeWhile(tail, IsDigit);
      RouteId("/" + tail) == if |digits| == 0 then None else Some(DigitsValue(digits))
  {
    var after := "/" + tail;
    assert after[0] == '/';
    assert after[1..] == tail;
  }

  /** The id group of `/<numeral><suffix>` is the numeral's number when the suffix does not continue it. */
  lemma RouteIdOfDecimal(n: nat, suffix: string)
    requires |suffix| == 0 || !IsDigit(suffix[0])
    ensures RouteId("/" + Decimal(n) + suffix) == Some(n)
  {
    var numeral := Decimal(n);
    assert "/" + numeral + suffix == "/" + (numeral + suffix);
    RouteIdAfterSlash(numeral + suffix);
    TakeWhileStops(numeral, suffix, IsDigit);
    DigitsValueOfDecimal(n);
  }

  /** `/api/<name>/<n><suffix>` addresses record `n` of `name` when the suffix does not continue the digits. */
  lemma ApiRouteWithId(name: string, n: nat, suffix: string)
    requires |name| > 0 && forall i :: 0 <= i < |name| ==> name[i] != '/'
    requires |suffix| == 0 || !IsDigit(suffix[0])
    ensures ParseRoute("/api/" + name + "/" + Decimal(n) + suffix) == ApiRoute(name, Some(n))
  {
    var after := "/" + Decimal(n) + suffix;
    assert "/api/" + name + "/" + Decimal(n) + suffix == "/api/" + name + after;
    ApiRouteOf(name, after);
    RouteIdOfDecimal(n, suffix);
  }

  /** A zero-padded numeral is a run of digits. */
  lemma PaddedIsDigits(z: nat, n: nat)
    ensures var numeral := seq(z, _ => '0') + Decimal(n);
      forall i :: 0 <= i < |numeral| ==> IsDigit(numeral[i])
  {
    var numeral := seq(z, _ => '0') + Decimal(n);
    forall i | 0 <= i < |numeral|
      ensures IsDigit(numeral[i])
    {
      if i >= z {
        assert numeral[i] == Decimal(n)[i - z];
      }
    }
  }

  /** The id group of `/<zeros><numeral><suffix>` is the numeral's number: leading zeros are skipped. */
  lemma RouteIdOfPadded(z: nat, n: nat, suffix: string)
    requires |suffix| == 0 || !IsDigit(suffix[0])
    ensures RouteId("/" + seq(z, _ => '0') + Decimal(n) + suffix) == Some(n)
  {
    var numeral := seq(z, _ => '0') + Decimal(n);
    assert "/" + seq(z, _ => '0') + Decimal(n) + suffix == "/" + (numeral + suffix);
    PaddedIsDigits(z, n);
    RouteIdAfterSlash(numeral + suffix);
    TakeWhileStops(numeral, suffix, IsDigit);
    DigitsValueOfPadded(z, n);
  }

  /** `/api/<name>/<zeros><n><suffix>` also addresses record `n`: `/api/books/07` is record 7, `/api/books/00` record 0. */
  lemma ApiRouteWithPaddedId(name: string, z: nat, n: nat, suffix: string)
    requires |name| > 0 && forall i :: 0 <= i < |name| ==> name[i] != '/'
    requires |suffix| == 0 || !IsDigit(suffix[0])
    ensures ParseRoute("/api/" + name + "/" + seq(z, _ => '0') + Decimal(n) + suffix) == ApiRoute(name, Some(n))
  {
    var after := "/" + seq(z, _ => '0') + Decimal(n) + suffix;
    assert "/api/" + name + "/" + seq(z, _ => '0') + Decimal(n) + suffix == "/api/" + name + after;
    ApiRouteOf(name, after);
    RouteIdOfPadded(z, n, suffix);
  }

  /** `/api/<name>` with nothing after the name lists the collection. */
  lemma ApiRouteWithoutId(name: string)
    requires |name| > 0 && forall i :: 0 <= i < |name| ==> name[i] != '/'
    ensures ParseRoute("/api/" + name) == ApiRoute(name, None)
  {
    assert "/api/" + name + "" == "/api/" + name;
    ApiRouteOf(name, "");
  }

  /** `/assets/<file>` (in any letter case) requests `file` when it holds no line break. */
  lemma AssetRouteOf(prefix: string, file: string)
    requires StartsWithIgnoringCase(prefix, "/assets/") && |prefix| == 8
    requires forall i :: 0 <= i < |file| ==> !IsLineTerminator(file[i])
    ensures ParseRoute(prefix + file) == AssetRoute(file)
  {
    var path := prefix + file;
    assert StartsWithIgnoringCase(path, "/assets/") by {
      forall i | 0 <= i < 8
        ensures AsciiLower(path[i]) == AsciiLower("/assets/"[i])
      {
        assert path[i] == prefix[i];
      }
    }
    assert path[8..] == file + "";
    TakeWhileStops(file, "", c => !IsLineTerminator(c));
  }
}

=== FILE: server.dfy ===
/**
  The request handler of the development server, from an already parsed
  pathname, method and collected body: route the pathname, serve an asset
  or the index page, or dispatch an API call to the store by HTTP verb.
*/
module Server {
  import opened Wrappers
  import opened Json
  import opened Http
  import opened Store
  import opened StoreLaws
  import opened Assets
  import opened Router

  /** A request as the handler sees it once the body has been collected. */
  datatype Request = Request(verb: string, pathname: string, body: Wire)

  /** The page served for every path that is neither an asset nor an API call. */
  const IndexPage := "client/index.html"

  const DeleteNeedsId := "id is required when deleting"

  /** The store only grows: no collection disappears, none gets shorter, and a tombstone stays one. */
  ghost predicate Evolves(s: Entities, s': Entities)
  {
    && (forall n :: n in s ==> n in s' && |s[n]| <= |s'[n]|)
    && (forall n, k :: n in s && 0 <= k < |s[n]| && s[n][k].None? ==> n in s' && k < |s'[n]| && s'[n][k].None?)
  }

  lemma EvolvesTransitive(s: Entities, s': Entities, s'': Entities)
    requires Evolves(s, s') && Evolves(s', s'')
    ensures Evolves(s, s'')
  {
  }

  /** Dispatch of an API call on collection `name` by verb. */
  function HandleApi(s: Entities, req: Request, name: string, id: RouteId, now: int): (r: Outcome)
    ensures req.verb !in {"GET", "POST", "PUT", "DELETE"} ==> r == Outcome(s, Unanswered)
    ensures req.verb == "GET" ==> r == Outcome(s, Answered(GetEntities(s, name, id)))
    ensures req.verb in {"POST", "PUT"} && req.body.Malformed? ==> r.store == s && r.reply.Thrown?
    ensures req.verb == "POST" && req.body.Encoded? ==> r == CreateEntity(s, name, req.body.value, now)
    ensures req.verb == "PUT" && req.body.Encoded? ==> r == UpdateEntity(s, name, req.body.value, now)
    ensures req.verb == "DELETE" && IdGiven(id) ==> r == DeleteEntity(s, name, id.value)
    ensures req.verb == "DELETE" && !IdGiven(id) ==> r == Outcome(s, Answered(BadRequest(DeleteNeedsId)))
    ensures Evolves(s, r.store)
  {
    match req.verb
    case "GET" => Outcome(s, Answered(GetEntities(s, name, id)))
    case "POST" =>
      (match Parse(req.body)
       case Err(e) => Outcome(s, Thrown(e))
       case Ok(entity) => CreateEntity(s, name, entity, now))
    case "PUT" =>
      (match Parse(req.body)
       case Err(e) => Outcome(s, Thrown(e))
       case Ok(entity) => UpdateEntity(s, name, entity, now))
    case "DELETE" =>
      if !IdGiven(id) then Outcome(s, Answered(BadRequest(DeleteNeedsId)))
      else DeleteEntity(s, name, id.value)
    case _ => Outcome(s, Unanswered)
  }

  /**
    The request handler: assets and the index page are served for any verb
    and never touch the store; an API call goes to `HandleApi`. A missing
    index page makes the read callback throw.
  */
  function Handle(s: Entities, files: Files, req: Request, now: int): (r: Outcome)
    ensures ParseRoute(req.pathname).AssetRoute? ==>
      r == Outcome(s, Answered(GetAsset(files, StaticDirs, ParseRoute(req.pathname).file, 0)))
    ensures ParseRoute(req.pathname).IndexRoute? ==>
      r.store == s &&
      if IndexPage in files then r.reply == Answered(AssetResponse(files[IndexPage], IndexPage))
      else r.reply.Thrown?
    ensures ParseRoute(req.pathname).ApiRoute? ==>
      r == HandleApi(s, req, ParseRoute(req.pathname).name, ParseRoute(req.pathname).id, now)
    ensures Evolves(s, r.store)
  {
    match ParseRoute(req.pathname)
    case AssetRoute(file) => Outcome(s, Answered(GetAsset(files, StaticDirs, file, 0)))
    case ApiRoute(name, id) => HandleApi(s, req, name, id, now)
    case IndexRoute =>
      if IndexPage in files then Outcome(s, Answered(AssetResponse(files[IndexPage], IndexPage)))
      else Outcome(s, Thrown("ENOENT"))
  }

  /** A request together with the clock reading when it is handled. */
  datatype Timed = Timed(request: Request, now: int)

  /**
    The server process: running with its in-memory store, or exited. Every
    throw the handler can raise happens in a callback with nothing to catch
    it, so the process exits, the store is lost and no later request is
    answered.
  */
  datatype Process = Up(store: Entities) | Exited

  /** The process after handling the requests in order. */
  function Run(s: Entities, files: Files, reqs: seq<Timed>): (p: Process)
    ensures |reqs| == 0 ==> p == Up(s)
    ensures p.Up? ==> Evolves(s, p.store)
    decreases |reqs|
  {
    if |reqs| == 0 then Up(s)
    else
      var o := Handle(s, files, reqs[0].request, reqs[0].now);
      if o.reply.Thrown? then Exited
      else Run(o.store, files, reqs[1..])
  }

  /** Running two batches of requests is running the second from where the first left the process. */
  lemma {:induction false} RunAppend(s: Entities, files: Files, a: seq<Timed>, b: seq<Timed>)
    ensures Run(s, files, a + b) == match Run(s, files, a) case Up(s') => Run(s', files, b) case Exited => Exited
    decreases |a|
  {
    if |a| == 0 {
      assert a + b == b;
    } else {
      assert (a + b)[0] == a[0];
      assert (a + b)[1..] == a[1..] + b;
      var o := Handle(s, files, a[0].request, a[0].now);
      if !o.reply.Thrown? {
        RunAppend(o.store, files, a[1..], b);
      }
    }
  }

  /**
    One step: a request whose handling throws ends the process; any other
    keeps it up, and the rest is served from the store it left.
  */
  lemma RunStep(s: Entities, files: Files, t: Timed, rest: seq<Timed>)
    ensures var o := Handle(s, files, t.request, t.now);
      Run(s, files, [t] + rest) == if o.reply.Thrown? then Exited else Run(o.store, files, rest)
  {
    assert ([t] + rest)[0] == t && ([t] + rest)[1..] == rest;
  }

  /** Request `k` is reached with the process up, and its handling throws. */
  predicate ThrowsAt(s: Entities, files: Files, reqs: seq<Timed>, k: int)
  {
    0 <= k < |reqs| && Run(s, files, reqs[..k]).Up?
    && Handle(Run(s, files, reqs[..k]).store, files, reqs[k].request, reqs[k].now).reply.Thrown?
  }

  /** A throw at `k` after a request that did not throw is a throw at `k + 1` of the longer batch. */
  lemma ThrowsAtShift(s: Entities, files: Files, t: Timed, tail: seq<Timed>, k: int)
    ensures var o := Handle(s, files, t.request, t.now);
      !o.reply.Thrown? && ThrowsAt(o.store, files, tail, k) ==> ThrowsAt(s, files, [t] + tail, k + 1)
  {
    var o := Handle(s, files, t.request, t.now);
    if !o.reply.Thrown? && ThrowsAt(o.store, files, tail, k) {
      var reqs := [t] + tail;
      assert reqs[..k + 1] == [t] + tail[..k];
      RunStep(s, files, t, tail[..k]);
      assert reqs[k + 1] == tail[k];
    }
  }

  /** The process exits only at a request whose handling throws, reached while it was still up. */
  lemma {:induction false} ExitedOnlyAfterThrow(s: Entities, files: Files, reqs: seq<Timed>)
    requires Run(s, files, reqs).Exited?
    ensures exists k :: ThrowsAt(s, files, reqs, k)
    decreases |reqs|
  {
    var o := Handle(s, files, reqs[0].request, reqs[0].now);
    if o.reply.Thrown? {
      assert reqs[..0] == [];
      assert ThrowsAt(s, files, reqs, 0);
    } else {
      var tail := reqs[1..];
      assert reqs == [reqs[0]] + tail;
      RunStep(s, files, reqs[0], tail);
      ExitedOnlyAfterThrow(o.store, files, tail);
      var k :| ThrowsAt(o.store, files, tail, k);
      ThrowsAtShift(s, files, reqs[0], tail, k);
    }
  }

  /** A request whose handling throws ends the process: whatever follows is never served. */
  lemma ThrowEndsTheProcess(s: Entities, files: Files, done: seq<Timed>, t: Timed, rest: seq<Timed>)
    requires Run(s, files, done).Up?
    requires Handle(Run(s, files, done).store, files, t.request, t.now).reply.Thrown?
    ensures Run(s, files, done + [t] + rest) == Exited
  {
    assert done + [t] + rest == done + ([t] + rest);
    RunAppend(s, files, done, [t] + rest);
    assert ([t] + rest)[0] == t;
  }

  /** A POST of text that is not JSON to a collection ends the process, whatever was to follow. */
  lemma MalformedPostEndsTheProcess(s: Entities, files: Files, name: string, text: string, t: int, rest: seq<Timed>)
    requires RoutableName(name)
    ensures Run(s, files, [Timed(Request("POST", "/api/" + name, Malformed(text)), t)] + rest) == Exited
  {
    var post := Timed(Request("POST", "/api/" + name, Malformed(text)), t);
    ApiRouteWithoutId(name);
    assert Handle(s, files, post.request, t).reply.Thrown?;
    ThrowEndsTheProcess(s, files, [], post, rest);
    assert [] + [post] + rest == [post] + rest;
  }

  /**
    After id `k` of `name` is deleted, whatever requests follow, while the
    process runs reading `k` is a 404 and the next create assigns an id
    above `k`.
  */
  lemma DeletedIdIsNeverServedOrReused(s: Entities, files: Files, name: string, k: nat, reqs: seq<Timed>)
    requires name in s && 1 <= k <= |s[name]|
    ensures var later := Run(DeleteEntity(s, name, k).store, files, reqs);
      later.Up? ==>
        && GetEntities(later.store, name, Some(k)) == ApiNotFound()
        && NextId(later.store, name) > k
  {
    var deleted: Entities := DeleteEntity(s, name, k).store;
    assert deleted[name][k - 1].None?;
  }

  /** A collection name the API route can carry. */
  predicate RoutableName(name: string)
  {
    |name| > 0 && forall i :: 0 <= i < |name| ==> name[i] != '/'
  }

  /** The two routes of the scenario below. */
  lemma ScenarioRoutes(name: string)
    requires RoutableName(name)
    ensures ParseRoute("/api/" + name) == ApiRoute(name, None)
    ensures ParseRoute("/api/" + name + "/1") == ApiRoute(name, Some(1))
  {
    ApiRouteWithoutId(name);
    ApiRouteWithId(name, 1, "");
    assert Decimal(1) == "1";
    assert "/api/" + name + "/" + Decimal(1) + "" == "/api/" + name + "/1";
  }

  lemma ScenarioCreate(files: Files, name: string, payload: map<string, Json>, t: int)
    requires RoutableName(name)
    ensures Handle(map[], files, Request("POST", "/api/" + name, Encoded(JObj(payload))), t)
      == Outcome(map[name := [Some(JObj(Stamp(payload, 1, t)))]], Answered(ApiJson(JObj(Stamp(payload, 1, t)))))
  {
    ScenarioRoutes(name);
  }

  lemma ScenarioRead(files: Files, name: string, record: Json, t: int)
    requires RoutableName(name) && record.JObj?
    ensures Handle(map[name := [Some(record)]], files, Request("GET", "/api/" + name + "/1", Malformed("")), t)
      == Outcome(map[name := [Some(record)]], Answered(ApiJson(record)))
  {
    ScenarioRoutes(name);
  }

  lemma ScenarioDelete(files: Files, name: string, record: Json, t: int)
    requires RoutableName(name)
    ensures Handle(map[name := [Some(record)]], files, Request("DELETE", "/api/" + name + "/1", Malformed("")), t)
      == Outcome(map[name := [None]], Answered(Deleted()))
  {
    ScenarioRoutes(name);
    var c: Collection := [Some(record)];
    assert c[0 := None] == [None];
  }

  lemma ScenarioGone(files: Files, name: string, t: int)
    requires RoutableName(name)
    ensures Handle(map[name := [None]], files, Request("GET", "/api/" + name + "/1", Malformed("")), t)
      == Outcome(map[name := [None]], Answered(ApiNotFound()))
  {
    ScenarioRoutes(name);
    var s: Entities := map[name := [None]];
    assert GetEntities(s, name, Some(1)) == ApiNotFound();
    var one := Request("GET", "/api/" + name + "/1", Malformed(""));
    assert Handle(s, files, one, t) == HandleApi(s, one, name, Some(1), t);
  }

  lemma ScenarioEmptyList(files: Files, name: string, t: int)
    requires RoutableName(name)
    ensures Handle(map[name := [None]], files, Request("GET", "/api/" + name, Malformed("")), t)
      == Outcome(map[name := [None]], Answered(ApiJson(JArr([]))))
  {
    ApiRouteWithoutId(name);
    var s: Entities := map[name := [None]];
    var c: Collection := [None];
    LiveOfTombstones(c);
    assert s[name] == c && Live(c) == [];
    assert GetEntities(s, name, None) == ApiJson(JArr([]));
    var all := Request("GET", "/api/" + name, Malformed(""));
    assert Handle(s, files, all, t) == HandleApi(s, all, name, None, t);
  }

  /**
    Create, read, delete, read and list one record in a fresh store: the
    create answers the payload with id 1 and both timestamps, the read
    returns that very record, the delete answers a bare 200, then the id is
    a 404 and the listing is empty. Each step starts from the store the
    previous one left.
  */
  lemma CrudScenario(files: Files, name: string, payload: map<string, Json>, t1: int, t2: int, t3: int, t4: int, t5: int)
    requires RoutableName(name)
    ensures
      var record := JObj(payload["id" := JNum(1)]["created" := JNum(t1)]["modified" := JNum(t1)]);
      var created := map[name := [Some(record)]];
      var deleted := map[name := [None]];
      && Handle(map[], files, Request("POST", "/api/" + name, Encoded(JObj(payload))), t1)
           == Outcome(created, Answered(ApiJson(record)))
      && Handle(created, files, Request("GET", "/api/" + name + "/1", Malformed("")), t2)
           == Outcome(created, Answered(ApiJson(record)))
      && Handle(created, files, Request("DELETE", "/api/" + name + "/1", Malformed("")), t3)
           == Outcome(deleted, Answered(Deleted()))
      && Handle(deleted, files, Request("GET", "/api/" + name + "/1", Malformed("")), t4)
           == Outcome(deleted, Answered(ApiNotFound()))
      && Handle(deleted, files, Request("GET", "/api/" + name, Malformed("")), t5)
           == Outcome(deleted, Answered(ApiJson(JArr([]))))
  {
    var record := JObj(Stamp(payload, 1, t1));
    assert record == JObj(payload["id" := JNum(1)]["created" := JNum(t1)]["modified" := JNum(t1)]);
    ScenarioCreate(files, name, payload, t1);
    ScenarioRead(files, name, record, t2);
    ScenarioDelete(files, name, record, t3);
    ScenarioGone(files, name, t4);
    ScenarioEmptyList(files, name, t5);
  }
}

=== FILE: store.dfy ===
/**
  The in-memory entity store of the development server: every collection
  name maps to a sequence of slots, and the id of a record is its 1-based
  slot position. Deleting writes a tombstone (`None`) and never shrinks the
  sequence, so an id is never reused.
*/
module Store {
  import opened Wrappers
  import opened Json
  import opened Http

  /** One array element of a collection; `None` is the `null` tombstone. */
  type Slot = Option<Json>
  type Collection = seq<Slot>
  type Entities = map<string, Collection>

  /** The store after a request and what the request got back. */
  datatype Outcome = Outcome(store: Entities, reply: Reply)

  /** The id parsed from a route: `None` is `NaN` (no digits). */
  type RouteId = Option<nat>

  /** JavaScript truthiness of a route id: `NaN` and `0` are falsy. */
  predicate IdGiven(id: RouteId)
  {
    id.Some? && id.value != 0
  }

  /** `!!entities[id - 1]`: the slot for `id` exists and holds a record. */
  predicate Present(c: Collection, id: int)
  {
    1 <= id <= |c| && c[id - 1].Some? && Truthy(c[id - 1].value)
  }

  /** `entities.filter(e => !!e)`: the records that are not tombstones, in slot order. */
  function Live(c: Collection): (r: seq<Json>)
    ensures |r| <= |c|
    ensures forall i :: 0 <= i < |r| ==> Truthy(r[i])
  {
    if |c| == 0 then []
    else Live(c[..|c| - 1]) + (if c[|c| - 1].Some? && Truthy(c[|c| - 1].value) then [c[|c| - 1].value] else [])
  }

  /** A record is listed exactly when some slot holds it and it is truthy. */
  lemma {:induction false} LiveMembers(c: Collection, x: Json)
    ensures x in Live(c) <==> exists i :: 0 <= i < |c| && c[i] == Some(x) && Truthy(x)
  {
    if |c| > 0 {
      var init := c[..|c| - 1];
      LiveMembers(init, x);
      if x in Live(c) && x !in Live(init) {
        assert c[|c| - 1] == Some(x);
      }
      if exists i :: 0 <= i < |c| && c[i] == Some(x) && Truthy(x) {
        var i :| 0 <= i < |c| && c[i] == Some(x) && Truthy(x);
        if i < |c| - 1 {
          assert init[i] == Some(x);
        }
      }
    }
  }

  /** Appending a record lists it last, after the records listed before. */
  lemma LiveAppend(c: Collection, x: Json)
    requires Truthy(x)
    ensures Live(c + [Some(x)]) == Live(c) + [x]
  {
    assert (c + [Some(x)])[..|c|] == c;
  }

  /** A collection of tombstones only lists nothing. */
  lemma {:induction false} LiveOfTombstones(c: Collection)
    requires forall i :: 0 <= i < |c| ==> c[i].None?
    ensures Live(c) == []
  {
    if |c| > 0 {
      LiveOfTombstones(c[..|c| - 1]);
    }
  }

  /**
    `getEntities`: with a truthy id, the record in slot `id`; without one,
    the live records of the collection. 404 with no body when the
    collection is unknown or the slot is missing or a tombstone.
  */
  function GetEntities(s: Entities, name: string, id: RouteId): (r: Response)
    ensures r == ApiNotFound() <==> name !in s || (IdGiven(id) && !Present(s[name], id.value))
    ensures name in s && IdGiven(id) && Present(s[name], id.value) ==>
      r == ApiJson(s[name][id.value - 1].value)
    ensures name in s && !IdGiven(id) ==> r == ApiJson(JArr(Live(s[name])))
  {
    if name !in s then ApiNotFound()
    else
      var entities := s[name];
      if IdGiven(id) then
        if |entities| >= id.value then
          var entity := entities[id.value - 1];
          if entity.None? || !Truthy(entity.value) then ApiNotFound() else ApiJson(entity.value)
        else ApiNotFound()
      else ApiJson(JArr(Live(entities)))
  }

  /** The store's own fields stamped onto a created object. */
  function Stamp(fields: map<string, Json>, id: nat, now: int): map<string, Json>
  {
    fields["created" := JNum(now)]["modified" := JNum(now)]["id" := JNum(id)]
  }

  /** Every collection but `name` is untouched. */
  ghost predicate OthersUnchanged(s: Entities, s': Entities, name: string)
  {
    forall n :: n != name ==> (n in s <==> n in s') && (n in s ==> s'[n] == s[n])
  }

  /**
    `createEntity`: the collection is made lazily, the record is appended,
    gets `id` = the new length (overwriting any id it carried) and
    `created` = `modified` = `now`. A primitive or null payload makes the
    strict-mode property assignment throw after the collection was made.
  */
  function CreateEntity(s: Entities, name: string, payload: Json, now: int): (r: Outcome)
    ensures name in r.store && OthersUnchanged(s, r.store, name)
    ensures var before := if name in s then s[name] else [];
      && |before| <= |r.store[name]|
      && r.store[name][..|before|] == before
      && (payload.JObj? ==>
            && |r.store[name]| == |before| + 1
            && r.store[name][|before|].Some?
            && var e := r.store[name][|before|].value;
            && r.reply == Answered(ApiJson(e))
            && Field(e, "id") == Some(JNum(|before| + 1))
            && Field(e, "created") == Some(JNum(now))
            && Field(e, "modified") == Some(JNum(now))
            && e.fields.Keys == payload.fields.Keys + {"id", "created", "modified"}
            && (forall k :: k in payload.fields && k !in {"id", "created", "modified"} ==>
                  e.fields[k] == payload.fields[k]))
      && (payload.JArr? ==>
            r.store[name] == before + [Some(payload)] && r.reply == Answered(ApiJson(payload)))
      && (!payload.JObj? && !payload.JArr? ==> r.store[name] == before && r.reply.Thrown?)
  {
    var entities := if name in s then s[name] else [];
    match payload
    case JObj(fields) =>
      var entity := JObj(Stamp(fields, |entities| + 1, now));
      Outcome(s[name := entities + [Some(entity)]], Answered(ApiJson(entity)))
    case JArr(_) =>
      // properties set on an array are not part of its JSON text
      Outcome(s[name := entities + [Some(payload)]], Answered(ApiJson(payload)))
    case _ =>
      Outcome(s[name := entities], Thrown("TypeError"))
  }

  /** JavaScript `Number(v)` for the `id` of an update payload; `None` is `NaN`. */
  function NumericId(v: Option<Json>): (r: Option<int>)
    ensures v == Some(JNull) ==> r == Some(0)
    ensures (v.Some? && v.value.JNum?) ==> r == Some(v.value.n)
    ensures (v.Some? && v.value.JBool?) ==> r == Some(if v.value.b then 1 else 0)
    ensures r.None? <==> v.None? || v.value.JStr? || v.value.JArr? || v.value.JObj?
  {
    match v
    case Some(JNum(n)) => Some(n)
    case Some(JBool(b)) => Some(if b then 1 else 0)
    case Some(JNull) => Some(0)
    case _ => None
  }

  /** The id an update addresses, when it names a slot at all. */
  function PayloadId(payload: Json): (r: Option<int>)
    ensures r.Some? ==> payload.JObj? && "id" in payload.fields
    ensures payload.JObj? && "id" in payload.fields && payload.fields["id"].JNum? ==> r == Some(payload.fields["id"].n)
  {
    if payload.JObj? then NumericId(Field(payload, "id")) else None
  }

  /**
    `updateEntity`: 404 unless the collection exists and the payload's id
    addresses a live slot; otherwise the slot is replaced wholesale by the
    payload with `modified` = `now`. A `null` payload of a known collection
    throws when its `id` is read.
  */
  function UpdateEntity(s: Entities, name: string, payload: Json, now: int): (r: Outcome)
    ensures name !in s ==> r == Outcome(s, Answered(ApiNotFound()))
    ensures name in s && payload.JNull? ==> r.store == s && r.reply.Thrown?
    ensures name in s && !payload.JNull? ==>
      if PayloadId(payload).Some? && Present(s[name], PayloadId(payload).value) then
        var k := PayloadId(payload).value - 1;
        && r.store == s[name := s[name][k := Some(JObj(payload.fields["modified" := JNum(now)]))]]
        && r.reply == Answered(ApiJson(JObj(payload.fields["modified" := JNum(now)])))
      else r == Outcome(s, Answered(ApiNotFound()))
  {
    if name !in s then Outcome(s, Answered(ApiNotFound()))
    else
      var entities := s[name];
      match payload
      case JNull => Outcome(s, Thrown("TypeError"))
      case JObj(fields) =>
        var id := NumericId(Field(payload, "id"));
        if id.None? || |entities| < id.value then Outcome(s, Answered(ApiNotFound()))
        else if id.value < 1 then Outcome(s, Answered(ApiNotFound()))
        else if entities[id.value - 1].None? || !Truthy(entities[id.value - 1].value) then
          Outcome(s, Answered(ApiNotFound()))
        else
          var entity := JObj(fields["modified" := JNum(now)]);
          Outcome(s[name := entities[id.value - 1 := Some(entity)]], Answered(ApiJson(entity)))
      case _ => Outcome(s, Answered(ApiNotFound()))
  }

  /**
    `deleteEntity`: 404 for an unknown collection or an id past the end;
    otherwise the slot becomes a tombstone (also when it already was one)
    and the reply is a bare 200. Id 0 writes the array's `-1` property,
    which is no slot.
  */
  function DeleteEntity(s: Entities, name: string, id: nat): (r: Outcome)
    ensures name !in s || |s[name]| < id <==> r == Outcome(s, Answered(ApiNotFound()))
    ensures name in s && |s[name]| >= id ==> r.reply == Answered(Deleted())
    ensures name in s && 1 <= id <= |s[name]| ==> r.store == s[name := s[name][id - 1 := None]]
    ensures id == 0 ==> r.store == s
  {
    if name !in s then Outcome(s, Answered(ApiNotFound()))
    else
      var entities := s[name];
      if |entities| < id then Outcome(s, Answered(ApiNotFound()))
      else if id == 0 then Outcome(s, Answered(Deleted()))
      else Outcome(s[name := entities[id - 1 := None]], Answered(Deleted()))
  }
}

=== FILE: store_laws.dfy ===
/** How the store's operations relate to one another. */
module StoreLaws {
  import opened Wrappers
  import opened Json
  import opened Http
  import opened Store

  /** The id the next create in `name` assigns: one past the current length. */
  function NextId(s: Entities, name: string): nat
  {
    (if name in s then |s[name]| else 0) + 1
  }

  /** The record a reply carries as its JSON body, if any. */
  function ReplyRecord(r: Reply): Option<Json>
  {
    if r.Answered? && r.response.content.Some? && r.response.content.value.Doc?
       && r.response.content.value.wire.Encoded?
    then Some(r.response.content.value.wire.value)
    else None
  }

  /** A created object answers with id `NextId`, and reading that id returns the very same record. */
  lemma GetAfterCreate(s: Entities, name: string, payload: Json, now: int)
    requires payload.JObj?
    ensures var o := CreateEntity(s, name, payload, now);
      && ReplyRecord(o.reply).Some?
      && Field(ReplyRecord(o.reply).value, "id") == Some(JNum(NextId(s, name)))
      && GetEntities(o.store, name, Some(NextId(s, name))) == o.reply.response
  {
  }

  /** Reading a replaced id returns the record the update answered with. */
  lemma GetAfterUpdate(s: Entities, name: string, payload: Json, now: int)
    requires name in s && PayloadId(payload).Some? && Present(s[name], PayloadId(payload).value)
    ensures var o := UpdateEntity(s, name, payload, now);
      && |o.store[name]| == |s[name]|
      && GetEntities(o.store, name, Some(PayloadId(payload).value)) == o.reply.response
  {
  }

  /** Once deleted, an id reads as 404, and the listing is the old one without that slot. */
  lemma GetAfterDelete(s: Entities, name: string, id: nat)
    requires name in s && 1 <= id <= |s[name]|
    ensures var o := DeleteEntity(s, name, id);
      && |o.store[name]| == |s[name]|
      && GetEntities(o.store, name, Some(id)) == ApiNotFound()
      && forall x :: x in Live(o.store[name]) ==> x in Live(s[name])
  {
    var o := DeleteEntity(s, name, id);
    forall x | x in Live(o.store[name])
      ensures x in Live(s[name])
    {
      LiveMembers(o.store[name], x);
      LiveMembers(s[name], x);
    }
  }

  /** `createEntity` applied to each payload in turn; the replies in order. */
  function CreateAll(s: Entities, name: string, payloads: seq<Json>, now: int): (r: (Entities, seq<Reply>))
    ensures |r.1| == |payloads|
    decreases |payloads|
  {
    if |payloads| == 0 then (s, [])
    else
      var o := CreateEntity(s, name, payloads[0], now);
      var rest := CreateAll(o.store, name, payloads[1..], now);
      (rest.0, [o.reply] + rest.1)
  }

  /** The i-th reply answers with a record whose id is `start + i`. */
  predicate NumberedFrom(replies: seq<Reply>, start: int)
  {
    forall i :: 0 <= i < |replies| ==>
      ReplyRecord(replies[i]).Some? && Field(ReplyRecord(replies[i]).value, "id") == Some(JNum(start + i))
  }

  lemma NumberedFromCons(r: Reply, rest: seq<Reply>, start: int)
    requires ReplyRecord(r).Some? && Field(ReplyRecord(r).value, "id") == Some(JNum(start))
    requires NumberedFrom(rest, start + 1)
    ensures NumberedFrom([r] + rest, start)
  {
    forall i | 0 <= i < |[r] + rest|
      ensures ReplyRecord(([r] + rest)[i]).Some?
      ensures Field(ReplyRecord(([r] + rest)[i]).value, "id") == Some(JNum(start + i))
    {
      if i > 0 {
        assert ([r] + rest)[i] == rest[i - 1];
      }
    }
  }

  /** One create of an object: the collection exists and is one longer, and the reply carries the assigned id. */
  lemma CreateStep(s: Entities, name: string, payload: Json, now: int)
    requires payload.JObj?
    ensures var o := CreateEntity(s, name, payload, now);
      && name in o.store
      && NextId(o.store, name) == NextId(s, name) + 1
      && ReplyRecord(o.reply).Some?
      && Field(ReplyRecord(o.reply).value, "id") == Some(JNum(NextId(s, name)))
  {
  }

  /**
    Creating objects one after another numbers them consecutively from
    `NextId`, and leaves the collection that much longer.
  */
  lemma {:induction false} CreatesNumberConsecutively(s: Entities, name: string, payloads: seq<Json>, now: int)
    requires forall i :: 0 <= i < |payloads| ==> payloads[i].JObj?
    ensures NumberedFrom(CreateAll(s, name, payloads, now).1, NextId(s, name))
    ensures name in CreateAll(s, name, payloads, now).0 || |payloads| == 0
    ensures name in CreateAll(s, name, payloads, now).0 ==>
      NextId(CreateAll(s, name, payloads, now).0, name) == NextId(s, name) + |payloads|
    decreases |payloads|
  {
    if |payloads| > 0 {
      var o := CreateEntity(s, name, payloads[0], now);
      CreateStep(s, name, payloads[0], now);
      var rest := CreateAll(o.store, name, payloads[1..], now);
      assert CreateAll(s, name, payloads, now) == (rest.0, [o.reply] + rest.1);
      CreatesNumberConsecutively(o.store, name, payloads[1..], now);
      NumberedFromCons(o.reply, rest.1, NextId(s, name));
    }
  }

  /** On a fresh collection the i-th created record has id i. */
  lemma FreshCollectionIds(s: Entities, name: string, payloads: seq<Json>, now: int)
    requires name !in s
    requires forall i :: 0 <= i < |payloads| ==> payloads[i].JObj?
    ensures var replies := CreateAll(s, name, payloads, now).1;
      forall i :: 1 <= i <= |payloads| ==>
        ReplyRecord(replies[i - 1]).Some? && Field(ReplyRecord(replies[i - 1]).value, "id") == Some(JNum(i))
  {
    CreatesNumberConsecutively(s, name, payloads, now);
    assert NextId(s, name) == 1;
    var replies := CreateAll(s, name, payloads, now).1;
    forall i | 1 <= i <= |payloads|
      ensures ReplyRecord(replies[i - 1]).Some?
      ensures Field(ReplyRecord(replies[i - 1]).value, "id") == Some(JNum(i))
    {
      assert 0 <= i - 1 < |replies|;
    }
  }
}

=== FILE: transforms.dfy ===
/**
  The transformers the resource factory generates around the caller's
  per-entity functions.

  A caller's function may change the object it is handed; its `Call`
  reports both what it returned and the state it left its argument in, or
  the message it threw.
*/
module Transforms {
  import opened Wrappers
  import opened Json

  datatype Call = Returned(result: Json, argAfter: Json) | Threw(message: string)

  /** A caller-supplied entity transformer. */
  type UserFn = Json -> Call

  /**
    What the generated request transformer did: the JSON text to send and
    the caller's entity as it is afterwards, or the message thrown.
  */
  datatype Sent = Sent(body: Wire, entityAfter: Json) | SendThrew(message: string)

  /** The hooks an action carries. */
  type RequestHook = Json -> Sent
  type ResponseHook = Wire -> Result<Json>

  const NotJsonPrefix := "API response is not JSON: "

  /** The text a wire body arrived as, for diagnostics. */
  function RawText(w: Wire): string
  {
    match w
    case Malformed(t) => t
    case Encoded(_) => ""
  }

  /** `_.map(items, f)`: results in order, or the first element's throw. */
  function MapCall(f: UserFn, items: seq<Json>): (r: Result<seq<Json>>)
    ensures r.Ok? <==> forall i :: 0 <= i < |items| ==> f(items[i]).Returned?
    ensures r.Ok? ==> |r.value| == |items| && forall i :: 0 <= i < |items| ==> r.value[i] == f(items[i]).result
    ensures r.Err? ==>
      exists i :: (0 <= i < |items| && f(items[i]) == Threw(r.message)
                   && forall j :: 0 <= j < i ==> f(items[j]).Returned?)
  {
    if |items| == 0 then Ok([])
    else
      match f(items[0])
      case Threw(m) => Err(m)
      case Returned(v, _) =>
        match MapCall(f, items[1..])
        case Ok(rest) => Ok([v] + rest)
        case Err(m) =>
          assert forall i :: 1 <= i < |items| ==> f(items[i]) == f(items[1..][i - 1]);
          Err(m)
  }

  /** What a caller's function gives back, a throw propagating. */
  function ResultOf(c: Call): (r: Result<Json>)
  {
    match c
    case Returned(v, _) => Ok(v)
    case Threw(m) => Err(m)
  }

  /**
    The generated response transformer: the body must be JSON, else the
    error names the raw text; an array is transformed element by element,
    anything else once.
  */
  function DecodeWith(f: UserFn, data: Wire): (r: Result<Json>)
    ensures data.Malformed? ==> r == Err(NotJsonPrefix + data.text)
    ensures data.Encoded? && data.value.JArr? ==>
      var items := data.value.items;
      && (r.Ok? <==> forall i :: 0 <= i < |items| ==> f(items[i]).Returned?)
      && (r.Ok? ==> r.value.JArr? && |r.value.items| == |items|
                    && forall i :: 0 <= i < |items| ==> r.value.items[i] == f(items[i]).result)
      && (r.Err? ==> exists i :: 0 <= i < |items| && f(items[i]) == Threw(r.message)
                                && forall j :: 0 <= j < i ==> f(items[j]).Returned?)
    ensures data.Encoded? && !data.value.JArr? ==>
      (r.Ok? <==> f(data.value).Returned?) && (r.Ok? ==> r.value == f(data.value).result)
  {
    match Parse(data)
    case Err(_) => Err(NotJsonPrefix + RawText(data))
    case Ok(JArr(items)) =>
      (match MapCall(f, items)
       case Ok(results) => Ok(JArr(results))
       case Err(m) => Err(m))
    case Ok(value) => ResultOf(f(value))
  }

  /** The error of an unparsable response carries the whole raw text. */
  lemma MalformedNamesRawText(f: UserFn, text: string)
    ensures var r := DecodeWith(f, Malformed(text));
      r.Err? && |text| <= |r.message| && r.message[|r.message| - |text|..] == text
  {
  }

  /**
    The generated request transformer: the caller's function runs on a
    copy, its result is serialised, and the caller's entity is left as it
    was whatever the function did to its argument.
  */
  function EncodeWith(f: UserFn, entity: Json): (r: Sent)
    ensures r.Sent? <==> f(entity).Returned?
    ensures r.Sent? ==> Parse(r.body) == Ok(f(entity).result) && r.entityAfter == entity
    ensures r.SendThrew? ==> f(entity) == Threw(r.message)
  {
    var copy := entity;
    match f(copy)
    case Returned(transformed, _) => Sent(Stringify(transformed), entity)
    case Threw(m) => SendThrew(m)
  }

  function MakeResponseTransformer(f: UserFn): ResponseHook
  {
    data => DecodeWith(f, data)
  }

  function MakeRequestTransformer(f: UserFn): RequestHook
  {
    entity => EncodeWith(f, entity)
  }
}

=== FILE: wrappers.dfy ===
/** Option and Result values shared by every module of the model. */
module Wrappers {

  /** A value that may be missing: a JavaScript `undefined`/`null` lookup. */
  datatype Option<+T> = None | Some(value: T)

  /** The outcome of a step that may throw; `Err` carries the thrown message. */
  datatype Result<+T> = Ok(value: T) | Err(message: string)
}
